=== FILE: README.md ===
# Pulse filters and pickers

A model of the pulse-processing engine of a detector-analysis program. A
digitized pulse (a trace of equally spaced amplitude samples) goes through a
**filter**, which produces a trace of the same length, and then through a
**picker**, which reduces the filtered trace to one number: an energy, an
arrival index or a sub-sample crossing time.

- `Samples.dfy` (`module Samples`): the trace type, sums over index ranges,
  integer powers, the 32-bit `unsigned int` of the configuration interface
  (wrap-around of `L + G`, truncating `L / dt`) and the `Option`/`Result`
  wrappers.
- `FilterSpec.dfy` (`module FilterSpec`): what each filter computes, sample by
  sample, and the properties of those outputs (closed forms, DC blocking, the
  incremental step each main loop performs).
- `FilterAlgorithm.dfy` (`module FilterAlgorithm`): the filters as classes.
  Each filter owns its parameters and one output buffer `data`, which
  `Filter` resizes, overwrites sample by sample and returns as a value
  (see `## Left out` on the returned reference). The MWD and
  fast filters keep their running values in a ring `array` of l+1 slots
  with moving indices `ir`/`nir`/`pir`. Every loop is proved against the
  specification functions of `FilterSpec`.
- `PickerSpec.dfy` (`module PickerSpec`): the cubic through four samples,
  bisection, first-match scans, chord interpolation, the trapezoid stencil
  and window means, with their properties.
- `Picker.dfy` (`module Picker`): the pickers as immutable datatypes whose
  `Pick` methods are the source's loops, proved against `PickerSpec`, plus
  `ZeroPointCubicBinary`, the bisection loop.

The model is literal: it does what the code does, also where that differs
from the comments or the documentation. `## Findings` lists the places where
the code evidently departs from what its authors meant, each with a corrected
definition beside the literal one. Where the intent is not evident, the model
only states what the code computes. For example, the comment on the MWD output
step (main/FilterAlgorithm.cpp:138) says r[n] − r[n−1], but the code subtracts
the ring slot l values back. The r_0 summed at l+m therefore never leaves the
average, and `FilterSpec.MWDClosedForm` states that closed form.

## Model

| member | source | states |
|---|---|---|
| Samples.SumRange | main/FilterAlgorithm.cpp:204-212 | defines s[lo] + … + s[hi−1], the value the summing loops accumulate |
| Samples.Pow | main/FilterAlgorithm.cpp:193-195 | defines b^n for the integer exponent l of `pow(b, double(l))` |
| Samples.WrapAdd | main/FilterAlgorithm.cpp:76 | `L + G` in `unsigned int` is the true sum below 2^32 and the sum less 2^32 above it |
| Samples.ToSamples | main/FilterAlgorithm.cpp:76 | `L / dt` truncates: n·dt ≤ L < (n+1)·dt |
| FilterSpec.Fits | main/FilterAlgorithm.cpp:94-101 | defines the shape every filter relies on without checking it: l > 0, m > 0 and at least l+m+1 samples |
| FilterSpec.Diff | main/FilterAlgorithm.cpp:133 | defines p[n] = trace[n] − trace[n−m] |
| FilterSpec.DiffSum | main/FilterAlgorithm.cpp:354-357 | defines p[lo] + … + p[hi−1], the sum of differences the fast filter averages |
| FilterSpec.Deviation | main/FilterAlgorithm.cpp:107-109 | defines the sum of trace[i] − offset over the first n samples, one term per iteration as the loop adds them |
| FilterSpec.DeviationOfConstant | main/FilterAlgorithm.cpp:107-109 | on a flat trace, with the offset equal to the level, every term and so the whole sum is zero |
| FilterSpec.RingStep | main/FilterAlgorithm.cpp:137 | defines one ring update r_k = r_{k−1} + p_k − p_{k−1} + alpha·p_{k−1} |
| FilterSpec.RunningSumStep | main/FilterAlgorithm.cpp:138 | defines one MWD output step s[i] = s[i−1] + (r_{i−m} − r_{i−m−l})/l, with r_{i−m−l} the value slot nir holds |
| FilterSpec.MWDOffset | main/FilterAlgorithm.cpp:95-98 | defines the DC offset as the mean of the first l+m samples |
| FilterSpec.MWDRing | main/FilterAlgorithm.cpp:100-115 | defines r_0 = p_0 + alpha·(the first m samples less the offset) and r_k = r_{k−1} + p_k − p_{k−1} + alpha·p_{k−1}, with p_k = trace[m+k] − trace[k], as the opening loops and line 137 compute them |
| FilterSpec.IsMWDOutput | main/FilterAlgorithm.cpp:119-139 | defines an MWD output: zero below l+m, (r_0 + … + r_l)/l at l+m, and each later sample the previous one plus (r_{i−m} − r_{i−m−l})/l, the ring slot that line 138 subtracts |
| FilterSpec.InitialSlowSums | main/FilterAlgorithm.cpp:202-212 | defines the baseline sums as the windows [0, l), [l, m) and [m, l+m) |
| FilterSpec.SlowSumsAt | main/FilterAlgorithm.cpp:231-234 | defines the three sums after the update for index i exactly as the code updates them; this is the as-written half of the esum finding |
| FilterSpec.SlowAt | main/FilterAlgorithm.cpp:228-240 | defines the slow output: 0 through l+m (the baseline equals the first sums and is back-filled) and the weighted sums less the baseline past it |
| FilterSpec.FastAt | main/FilterAlgorithm.cpp:345-366 | defines the fast output: 0 below l+m and from l+m on the mean of the last l differences trace[j] − trace[j−m] |
| FilterSpec.CFDAt | main/FilterAlgorithm.cpp:406-411 | defines the CFD output at i ≥ d as fast[i]·(1 − w/8) − fast[i−d] |
| FilterSpec.Combine | main/FilterAlgorithm.cpp:236 | defines c0·esum0 + c1·esum1 + c2·esum2, the weighted sum of lines 213, 228 and 236 |
| FilterSpec.IntendedSlowSumsAt | main/FilterAlgorithm.cpp:231-234 | defines the corrected update, where esum0 takes trace[i−m−1] and esum1 takes trace[i−l−1], the samples that just entered their windows; this is the corrected half of the esum finding |
| FilterSpec.FastStepAt | main/FilterAlgorithm.cpp:365 | defines one fast output step s[i] = s[i−1] + (p[i] − p[i−l])/l |
| FilterSpec.CFDFactor | main/FilterAlgorithm.cpp:406 | defines the attenuation 1 − w/8 |
| FilterSpec.DiffSumTelescopes | main/FilterAlgorithm.cpp:364-365 | a sum of m-sample differences is the window sum less the same window m samples earlier |
| FilterSpec.DiffSumOfSlots | main/FilterAlgorithm.cpp:345-357 | the l slots the fast filter sums first hold the differences of samples m+1 .. m+l |
| FilterSpec.MWDRings | main/FilterAlgorithm.cpp:107-117 | the ring sequence has one value per sample from m on, each the pole-zero corrected running sum r_k |
| FilterSpec.MWDRingsStep | main/FilterAlgorithm.cpp:137 | every r_k follows from r_{k-1} by the update r_{k-1} + p_k − p_{k-1} + alpha·p_{k-1} |
| FilterSpec.RunningSumExtend | main/FilterAlgorithm.cpp:138 | appending one MWD output step keeps all earlier steps |
| FilterSpec.MWDClosedForm | main/FilterAlgorithm.cpp:123-138 | past l+m the MWD output is (r_0 + the last l ring values) / l: the extra r_0 summed at l+m never leaves |
| FilterSpec.MWDRingOfConstant | main/FilterAlgorithm.cpp:96-117 | on a flat trace the offset is the level and every ring value is zero |
| FilterSpec.MWDBlocksDC | main/FilterAlgorithm.cpp:94-146 | on a flat trace the whole MWD output is zero, for every l, m and alpha |
| FilterSpec.ZeroRingsGiveZeroOutput | main/FilterAlgorithm.cpp:120-138 | zero ring values give an all-zero MWD output |
| FilterSpec.XiaSlowCoefficients | main/FilterAlgorithm.cpp:193-195 | c1 = 4(1−b), c2·(1−b^l) = c1 and c0 = −c2·b^l |
| FilterSpec.SlowSumsClosedForm | main/FilterAlgorithm.cpp:219-237 | after the update for index i, esum2 is the window [i−l, i), esum0 the l+1 samples [i−l−m, i−m] less trace[l], esum1 the samples [i−m, i−l] less trace[m] |
| FilterSpec.SlowOutput | main/FilterAlgorithm.cpp:228-240 | given a zero prefix through l+m (which XiaSlowFilter.Filter establishes: the baseline equals the first sums and the plateau is back-filled), a buffer holding the weighted sums less the baseline past l+m is the slow output everywhere |
| FilterSpec.SlowSumsOfConstant | main/FilterAlgorithm.cpp:231-237 | on a flat trace the three sums never leave the baseline sums |
| FilterSpec.XiaSlowBlocksDC | main/FilterAlgorithm.cpp:192-243 | every slow-filter output is zero on a flat trace |
| FilterSpec.IntendedSlowSumsAreWindows | main/FilterAlgorithm.cpp:231-235 | with contiguous add-newest updates the three sums are the adjacent windows [i−l−m, i−m), [i−m, i−l), [i−l, i) |
| FilterSpec.XiaSlowSumsSkewed | main/FilterAlgorithm.cpp:232-233 | on [0, 0, 5, 0] with l = m = 1 the code's esum0 is 5 at i = 3 where the window [1, 2) sums to 0 |
| FilterSpec.FastStep | main/FilterAlgorithm.cpp:361-366 | the fast moving average steps by (newest difference − the difference l samples back) / l |
| FilterSpec.FastStepsExtend | main/FilterAlgorithm.cpp:365 | appending one fast output step keeps all earlier steps |
| FilterSpec.FastOutputFromSteps | main/FilterAlgorithm.cpp:349-366 | an output that opens as the fast filter's and then takes the incremental steps is the moving average everywhere |
| FilterSpec.FastBlocksDC | main/FilterAlgorithm.cpp:336-370 | the fast filter is zero on a flat trace |
| FilterSpec.CFDFromFast | main/FilterAlgorithm.cpp:406-411 | the CFD loop over a fast-filter output yields fast[i]·(1 − w/8) − fast[i−d] at every i ≥ d |
| FilterSpec.CFDBlocksDC | main/FilterAlgorithm.cpp:403-416 | the CFD output is zero on a flat trace |
| FilterAlgorithm.Resize | main/FilterAlgorithm.cpp:119 | resizing keeps the first entries and pads with zeros to exactly n entries |
| FilterAlgorithm.WindowSum | main/FilterAlgorithm.cpp:204-212 | each accumulation loop returns the sum of its index range |
| FilterAlgorithm.StartOutput | main/FilterAlgorithm.cpp:119-127 | the opened buffer has the trace's length, zeros below l+m, the sum of the first slots over l at l+m, and the rest untouched |
| FilterAlgorithm.RepeatBelow | main/FilterAlgorithm.cpp:238-240 | every sample below the given index takes its value; the rest is unchanged |
| FilterAlgorithm.MWDFillRing | main/FilterAlgorithm.cpp:96-117 | the fresh ring holds r_0 .. r_l and pn is left at p[m+l] |
| FilterAlgorithm.RingHolds | main/FilterAlgorithm.cpp:103-136 | defines the ring state: l+1 slots, ir the newest, slot s holding r_{wrap+s} up to ir and r_{wrap−(l+1)+s} past it |
| FilterAlgorithm.Slot | main/FilterAlgorithm.cpp:135-136 | defines slot n mod (l+1) of the ring |
| FilterAlgorithm.RingModulo | main/FilterAlgorithm.cpp:134-138 | defines r_n sitting in slot n mod (l+1) for each of the last l+1 values |
| FilterAlgorithm.LapStart | main/FilterAlgorithm.cpp:135-136 | defines the index slot 0 holds after some whole turns of the ring, l+1 values a turn |
| FilterAlgorithm.WholeTurns | main/FilterAlgorithm.cpp:135-136 | defines wrap as the start of a whole turn of the ring, some number of turns of l+1 values |
| FilterAlgorithm.RingSlotsByModulo | main/FilterAlgorithm.cpp:134-138 | when wrap is a whole number of turns, the ring state puts r_n in slot n mod (l+1) for each of the last l+1 values |
| FilterAlgorithm.SlotOfIndex | main/FilterAlgorithm.cpp:134-138 | for one index n of the last l+1, slot n mod (l+1) holds r_n |
| FilterAlgorithm.RingWriteStep | main/FilterAlgorithm.cpp:134-137 | after r_n is written into the slot after the newest: the ring state holds, wrap is still a whole number of turns, r_n is in slot n mod (l+1), and the next slot holds r_{n−l} |
| FilterAlgorithm.RingStepValue | main/FilterAlgorithm.cpp:137 | the value the update computes from r_{k−1}, p_k and p_{k−1} is r_k |
| FilterAlgorithm.RingAdvance | main/FilterAlgorithm.cpp:134-138 | writing r_n into the slot after the newest keeps slot s holding r_{wrap+s} up to the newest and r_{wrap−(l+1)+s} past it, with wrap moving on by l+1 when ir wraps to 0; the slot after it then holds r_{n−l} |
| FilterAlgorithm.MWDRingWrite | main/FilterAlgorithm.cpp:134-137 | the ring write keeps the ring state with wrap a whole number of turns, and leaves r_n at ir and r_{n−l} at nir |
| FilterAlgorithm.MWDUpdate | main/FilterAlgorithm.cpp:130-139 | the main loop keeps the first l+m+1 outputs and makes every later one the previous plus (r_n − r_{n−l}) / l; it leaves the last l+1 ring values each r_n in slot n mod (l+1) |
| FilterAlgorithm.MWDRun | main/FilterAlgorithm.cpp:118-139 | opening plus main loop give an MWD output: zeros below l+m, (r_0 + … + r_l)/l at l+m, the incremental steps after |
| FilterAlgorithm.MWDOutputFromSteps | main/FilterAlgorithm.cpp:119-139 | an output that opens as lines 119-127 do and then takes the steps of line 138 is an MWD output |
| FilterAlgorithm.FastRingHolds | main/FilterAlgorithm.cpp:342-364 | defines the fast ring state: slot s holds p of sample lap+s up to ir and of sample lap−(l+1)+s past it; before the first wrap the slot past ir is not yet written |
| FilterAlgorithm.FastFillRing | main/FilterAlgorithm.cpp:342-347 | the fresh ring holds the differences of samples m+1 .. m+l in slots 0 .. l−1 |
| FilterAlgorithm.FastRingAdvance | main/FilterAlgorithm.cpp:362-365 | writing the newest difference keeps the ring invariant, and the slot read next has always been written and holds the difference l samples back |
| FilterAlgorithm.FastRingWrite | main/FilterAlgorithm.cpp:362-364 | the ring write keeps the ring invariant and leaves the differences of samples n and n−l at ir and nir |
| FilterAlgorithm.FastUpdate | main/FilterAlgorithm.cpp:359-366 | after the main loop every output is the moving average of the last l differences (zero below l+m) |
| FilterAlgorithm.ThreeSums | main/FilterAlgorithm.cpp:202-212 | the three accumulation loops give the sums over [0, l), [l, m) and [m, l+m) |
| FilterAlgorithm.SlowUpdate | main/FilterAlgorithm.cpp:230-237 | the main loop keeps the first l+m+1 outputs and gives every later one the weighted sums at that index less the baseline |
| FilterAlgorithm.CFDCombine | main/FilterAlgorithm.cpp:406-411 | from d on the buffer holds fast[i]·factor − fast[i−d] |
| FilterAlgorithm.IdentityFilter.constructor | main/FilterAlgorithm.cpp:12-13 | a new identity filter has an empty buffer |
| FilterAlgorithm.IdentityFilter.Filter | main/FilterAlgorithm.cpp:22-24 | the identity filter hands back its input unchanged |
| FilterAlgorithm.IdentityFilter.Clone | main/FilterAlgorithm.cpp:27-29 | the clone is a fresh identity filter |
| FilterAlgorithm.MWDAlgorithm.constructor | main/FilterAlgorithm.cpp:67-69 | stores l, m and alpha as given |
| FilterAlgorithm.MWDAlgorithm.FromTimes | main/FilterAlgorithm.cpp:74-77 | l = L/dt and m = (L+G)/dt truncated, with L+G in 32 bits, and alpha = exp(dt/tau) − 1 |
| FilterAlgorithm.MWDAlgorithm.Clone | main/FilterAlgorithm.cpp:87-89 | the clone is fresh, has the same l, m, alpha and its own empty buffer |
| FilterAlgorithm.MWDAlgorithm.GetParameters | main/FilterAlgorithm.cpp:48-52 | returns the current l and m |
| FilterAlgorithm.MWDAlgorithm.SetParameters | main/FilterAlgorithm.cpp:54-58 | sets l and m and nothing else |
| FilterAlgorithm.MWDAlgorithm.SetTimeParameters | main/FilterAlgorithm.cpp:149-154 | sets l, m and alpha from the physical times as the constructor does |
| FilterAlgorithm.MWDAlgorithm.SetSampleParameters | main/FilterAlgorithm.cpp:157-162 | sets l and m as given and alpha from tau and dt |
| FilterAlgorithm.MWDAlgorithm.Filter | main/FilterAlgorithm.cpp:94-146 | the returned buffer is the object's `data` and is an MWD output of the trace's ring values |
| FilterAlgorithm.XiaSlowFilter.constructor | main/FilterAlgorithm.cpp:171-173 | stores l, m and b as given |
| FilterAlgorithm.XiaSlowFilter.FromTimes | main/FilterAlgorithm.cpp:177-179 | truncated l and m as for MWD, b = exp(−dt/tau) |
| FilterAlgorithm.XiaSlowFilter.Clone | main/FilterAlgorithm.cpp:187-189 | the clone is fresh with the same l, m, b |
| FilterAlgorithm.XiaSlowFilter.GetParameters | main/FilterAlgorithm.cpp:48-52 | returns the current l and m |
| FilterAlgorithm.XiaSlowFilter.SetParameters | main/FilterAlgorithm.cpp:54-58 | sets l and m and nothing else |
| FilterAlgorithm.XiaSlowFilter.SetTimeParameters | main/FilterAlgorithm.cpp:248-253 | sets l, m and b from the physical times |
| FilterAlgorithm.XiaSlowFilter.SetSampleParameters | main/FilterAlgorithm.cpp:257-262 | sets l and m as given and b from tau and dt |
| FilterAlgorithm.XiaSlowFilter.Filter | main/FilterAlgorithm.cpp:192-243 | the output has the trace's length, is zero up to l+m and past it the weighted sums less the baseline, sample by sample |
| FilterAlgorithm.XiaFastFilter.constructor | main/FilterAlgorithm.cpp:312-314 | stores l and m as given |
| FilterAlgorithm.XiaFastFilter.FromTimes | main/FilterAlgorithm.cpp:318-320 | truncated l = L/dt and m = (L+G)/dt |
| FilterAlgorithm.XiaFastFilter.Clone | main/FilterAlgorithm.cpp:331-333 | the clone is fresh with the same l and m |
| FilterAlgorithm.XiaFastFilter.GetParameters | main/FilterAlgorithm.cpp:284-288 | returns the current l and m |
| FilterAlgorithm.XiaFastFilter.SetParameters | main/FilterAlgorithm.cpp:299-303 | sets l and m |
| FilterAlgorithm.XiaFastFilter.SetTimeParameters | main/FilterAlgorithm.cpp:292-296 | sets truncated l and m from the physical times |
| FilterAlgorithm.XiaFastFilter.Filter | main/FilterAlgorithm.cpp:336-370 | the output has the trace's length, is zero below l+m and from l+m on the mean of the last l differences trace[k] − trace[k−m] |
| FilterAlgorithm.XiaCFDFilter.constructor | main/FilterAlgorithm.cpp:379-383 | stores l, m, d, w and builds its own fast filter with the same l and m |
| FilterAlgorithm.XiaCFDFilter.Valid | main/FilterAlgorithm.cpp:379-383 | defines the class invariant that the embedded fast filter has the CFD filter's l and m, which the constructor and SetParameters (lines 426-433) establish |
| FilterAlgorithm.XiaCFDFilter.FromTimes | main/FilterAlgorithm.cpp:386-388 | truncated l, m and d = D/dt from the physical times |
| FilterAlgorithm.XiaCFDFilter.Clone | main/FilterAlgorithm.cpp:396-398 | the clone and its embedded fast filter are fresh, with the same l, m, d, w |
| FilterAlgorithm.XiaCFDFilter.SetParameters | main/FilterAlgorithm.cpp:426-433 | sets l, m, d, w, and the embedded filter's l and m |
| FilterAlgorithm.XiaCFDFilter.SetTimeParameters | main/FilterAlgorithm.cpp:419-422 | sets the truncated lengths and w from the physical times |
| FilterAlgorithm.XiaCFDFilter.SetFastFilterParameters | main/FilterAlgorithm.cpp:443-446 | changes l and m here and in the embedded filter and keeps d and w |
| FilterAlgorithm.XiaCFDFilter.Filter | main/FilterAlgorithm.cpp:403-416 | the output has the trace's length, is fast[i]·(1 − w/8) − fast[i−d] from d on and repeats the value at d below it; the embedded fast filter's buffer is left holding the fast output, the moving average at every index |
| FilterAlgorithm.CloneIndependence | main/FilterAlgorithm.cpp:396-398 | changing a clone's parameters leaves the original filtering with its own |
| PickerSpec.Eval | main/Picker.cpp:18-24 | defines the value of the cubic at x by the Horner scheme of the lambda |
| PickerSpec.CubicFn | main/Picker.cpp:18-24 | defines the lambda `cubic` as a function of x |
| PickerSpec.NearZero | main/Picker.cpp:35 | defines the early-exit test abs(v) < eps, with the tolerance as a parameter |
| PickerSpec.Answer | main/Picker.cpp:35-45 | defines the number returned: the midpoint that passed the test, or the middle of the last bracket |
| PickerSpec.CubicThrough | main/Picker.cpp:13-16 | defines the four coefficients built from y0..y3 |
| PickerSpec.Bisect | main/Picker.cpp:27-45 | defines the outcome of a number of bisection rounds: the bracket when none are left, otherwise one more round |
| PickerSpec.Halve | main/Picker.cpp:33-42 | defines one round: an answer at the midpoint when it is near zero, else the left half when f is negative there and the right half otherwise |
| PickerSpec.CubicInterpolates | main/Picker.cpp:13-24 | the cubic takes the values y0, y1, y2, y3 at x = −1, 0, 1, 2 |
| PickerSpec.BisectInside | main/Picker.cpp:27-45 | a bisection never leaves its interval: an early answer lies strictly inside and the final bracket is nested in the start |
| PickerSpec.BisectHalves | main/Picker.cpp:32-43 | after n rounds without an early answer the bracket is (hi − lo)/2^n wide |
| PickerSpec.BisectKeepsSignChange | main/Picker.cpp:38-42 | a sign change from ≥ 0 at the left end to < 0 at the right end survives every round |
| PickerSpec.UnitAnswerInside | main/Picker.cpp:27-45 | the answer of a bisection of [0, 1] lies strictly between 0 and 1 |
| PickerSpec.CubicRoot | main/Picker.cpp:12-46 | in exact arithmetic, what zeroPointCubicBinary returns lies strictly between 0 and 1 (in doubles the midpoint can round to 1.0) |
| PickerSpec.BisectLocates | main/Picker.cpp:32-45 | for f(0) ≥ 0 > f(1) the bisection either stops near a zero or ends with a bracket of width 2^−steps over which f still changes sign |
| PickerSpec.CubicRootLocated | main/Picker.cpp:343 | with y1 ≥ 0 > y2 the cubic changes sign on [0, 1] and the bisection locates its crossing |
| PickerSpec.ZeroFall | main/Picker.cpp:302 | defines a fall through zero, data[i] ≥ 0 > data[i+1] |
| PickerSpec.Rise | main/Picker.cpp:353 | defines a rise through thr, data[i] ≤ thr < data[i+1] |
| PickerSpec.ArmedZeroFall | main/Picker.cpp:286-305 | defines ZeroCross's search: the first fall in [ts, hi) at or after the first sample above the threshold |
| PickerSpec.CubicModeTest | main/Picker.cpp:291 | defines the cubic-mode test as written, data[i] ≥ 0 and data[i] < 0 |
| PickerSpec.FractionThreshold | main/Picker.cpp:338 | defines the threshold base + (top − base)·fraction |
| PickerSpec.IntendedStencil | main/Picker.cpp:219-221 | defines the corrected stencil, whose left half mirrors the right with data[i−7]; this is the corrected half of the stencil finding |
| PickerSpec.FirstAbove | main/Picker.cpp:253-257 | the first index from `from` with a sample strictly above the threshold, or the length when there is none |
| PickerSpec.FirstZeroFall | main/Picker.cpp:299-305 | the first i in the range with data[i] ≥ 0 > data[i+1], and none before it |
| PickerSpec.FirstZeroFallAt | main/Picker.cpp:302 | a fall with none before it is the first one |
| PickerSpec.FirstRise | main/Picker.cpp:352-356 | the first i in the range with data[i] ≤ thr < data[i+1], and none before it |
| PickerSpec.FirstRiseAt | main/Picker.cpp:353 | a rise with none before it is the first one |
| PickerSpec.ChordZero | main/Picker.cpp:303 | y_i/(y_i − y_{i+1}) lies in [0, 1) and is where the chord reaches zero |
| PickerSpec.ChordCross | main/Picker.cpp:355 | (thr − y_i)/(y_{i+1} − y_i) lies in [0, 1) and is where the chord reaches thr |
| PickerSpec.ArmedZeroFallIsFirst | main/Picker.cpp:299-305 | the fall ZeroCross reports is the first from ts at or after the first sample above the threshold |
| PickerSpec.LinearZeroCross | main/Picker.cpp:296-307 | the linear answer lies in [k, k+1) for the first armed fall k, and is −1 when there is none |
| PickerSpec.IntendedCubicZeroCross | main/Picker.cpp:284-294 | the cubic mode as intended answers in (k, k+1) for the first armed fall k, −1 when there is none |
| PickerSpec.CubicFallAt | main/Picker.cpp:292 | k plus the cubic root around k lies strictly between k and k+1 |
| PickerSpec.CubicModeTestNeverHolds | main/Picker.cpp:291 | no sample passes the cubic-mode test `data[i] >= 0 && data[i] < 0` |
| PickerSpec.CubicModeMissesFall | main/Picker.cpp:291 | on [0, 10, −10, 0] there is an armed fall at 1 that the intended cubic mode places in (1, 2) |
| PickerSpec.FractionThresholdBetween | main/Picker.cpp:338 | for a fraction in [0, 1] the threshold lies between base and top |
| PickerSpec.LinearRiseTime | main/Picker.cpp:351-359 | the linear answer lies in [k, k+1) for the first rise k from ts, and is −1 when there is none |
| PickerSpec.CubicRiseTime | main/Picker.cpp:340-345 | the cubic answer lies in (k, k+1) for the first rise k from ts, and is −1 when there is none |
| PickerSpec.CubicRiseAt | main/Picker.cpp:343 | k plus the cubic root of thr minus the samples around k lies strictly between k and k+1 |
| PickerSpec.CubicRiseTimeAt | main/Picker.cpp:341-343 | at a known first rise k the cubic answer is the one placed at k |
| PickerSpec.RiseGivesSignChange | main/Picker.cpp:342-343 | at a rise the values handed to the bisection are ≥ 0 at x = 0 and < 0 at x = 1 |
| PickerSpec.Stencil | main/Picker.cpp:219-221 | defines the stencil value at i as the code computes it, data[i+9] twice and no data[i−7]; this is the as-written half of the stencil finding |
| PickerSpec.IsTopIndex | main/Picker.cpp:216-227 | defines the index the trapezoid scan leaves: 0 when no stencil value is negative, otherwise the first place of the smallest one |
| PickerSpec.TopIndexUnique | main/Picker.cpp:217-227 | at most one index is the first place of the smallest negative stencil value (or 0 when none is negative) |
| PickerSpec.IntendedStencilFlatOnLines | main/Picker.cpp:219-221 | the mirrored stencil reads zero on every straight line |
| PickerSpec.StencilTiltsOnRamp | main/Picker.cpp:220 | on the ramp data[k] = k the stencil as written reads 16 at i = 9, the mirrored one 0 |
| PickerSpec.BaseMeanAsWritten | main/Picker.cpp:126-130 | defines BasePicker's result as the sum of data[start, len) divided by len |
| PickerSpec.WindowMean | main/Picker.cpp:167-173 | defines the mean of the len samples from start |
| PickerSpec.WindowMeanOfConstant | main/Picker.cpp:167-173 | the mean of a flat window is its level |
| PickerSpec.BaseMeanAtZero | main/Picker.cpp:126-130 | from start 0 BasePicker's sum is the window mean |
| PickerSpec.BaseMeanSkipsWindow | main/Picker.cpp:127 | with start 1 and len 1 on [5, 7] BasePicker gives 0 where the window mean is 7 |
| Picker.ZeroPointCubicBinary | main/Picker.cpp:12-46 | the bisection loop, with 0 ≤ l < r ≤ 1 and r − l halved every round, returns the value CubicRoot specifies |
| Picker.MaxPicker.Clone | main/Picker.cpp:72-74 | the clone is the same picker; MaxPicker has no fields, so every MaxPicker is equal and this holds of any result |
| Picker.MaxPicker.Pick | main/Picker.cpp:77-83 | returns an element of the data that is at least every element |
| Picker.BasePicker.Clone | main/Picker.cpp:112-114 | the clone has the same len and start |
| Picker.BasePicker.Pick | main/Picker.cpp:123-132 | raises the range error exactly when start+len exceeds the size, otherwise returns data[start .. len−1] summed over len |
| Picker.TopBasePicker.Clone | main/Picker.cpp:154-156 | the clone has the same len and stop |
| Picker.TopBasePicker.Pick | main/Picker.cpp:164-174 | raises the range error exactly when stop+len exceeds the size, otherwise returns the mean of data[size−stop−len, size−stop) |
| Picker.TrapezoidTopPicker.Clone | main/Picker.cpp:196-198 | the clone has the same ts, l, m |
| Picker.TrapezoidTopPicker.Pick | main/Picker.cpp:201-228 | returns data[fr] for fr the first index in [ts+m−11, ts+m−1) of the smallest negative stencil value, or 0 when none is negative |
| Picker.LeadingEdgePicker.Clone | main/Picker.cpp:246-248 | the clone has the same threshold |
| Picker.LeadingEdgePicker.Pick | main/Picker.cpp:251-260 | returns the index of the first sample above the threshold, or the size; always in [0, size] |
| Picker.ZeroCrossPicker.Clone | main/Picker.cpp:278-280 | the clone has the same ts, threshold and mode |
| Picker.ZeroCrossPicker.Pick | main/Picker.cpp:283-308 | the cubic mode always returns −1; the linear mode returns the chord zero after the first armed fall from ts, or −1 |
| Picker.DigitalFractionPicker.Valid | main/Picker.cpp:316-317 | defines that both inner pickers are built from baseLen alone, with offset 0 |
| Picker.DigitalFractionPicker.Clone | main/Picker.cpp:330-332 | the clone is rebuilt from ts, fraction, mode and baseLen, so its inner pickers have offset 0; it equals the original when that was built the same way |
| Picker.DigitalFractionPicker.Pick | main/Picker.cpp:335-360 | a range error of the inner pickers propagates exactly when baseLen exceeds the size; otherwise the answer is the linear or cubic crossing of base + (top − base)·fraction, base and top the means of the first and last baseLen samples |
| Picker.CubicRiseScan | main/Picker.cpp:340-345 | the cubic scan returns the cubic crossing time of its specification |
| Picker.CubicRiseFrom | main/Picker.cpp:343 | i plus the bisected root of thr minus the four samples around i |
| Picker.LinearRiseScan | main/Picker.cpp:351-357 | the linear scan returns the linear crossing time of its specification |
| Picker.NewDigitalFractionPicker | main/Picker.cpp:316-323 | the constructor stores its four parameters and builds both inner pickers from baseLen with offset 0 |

## Left out

- Floating point: samples, coefficients and results are exact reals. Rounding, NaN and infinities are not modelled. Where the code would divide by zero, the model requires the divisor to be non-zero: len = 0 in the base pickers, l = 0 in the filters, tau = 0 in `dt/tau` (`0 < tau` in the constructors from times and the tau setters of MWDAlgorithm and XiaSlowFilter; the code would get alpha = +inf at main/FilterAlgorithm.cpp:76, 152 and 160, and b = 0 at main/FilterAlgorithm.cpp:178, 251 and 260, with which the slow filter runs normally on c0 = 0, c1 = c2 = 4), dt = 0 in the unsigned divisions `L/dt` (`0 < dt` in Samples.ToSamples and every member that calls it; main/FilterAlgorithm.cpp:76, 150, 178, 249, 293, 319, 387 and 420), and 1 − b^l = 0 in the slow-filter coefficients (main/FilterAlgorithm.cpp:193-195, which b = 1 from dt = 0 produces). The last is the `Pow(b, l) != 1.0` requirement of FilterSpec.XiaSlowCoefficients, FilterSpec.SlowAt and FilterAlgorithm.XiaSlowFilter.Filter. In doubles the bisection midpoint can also round to an end of its bracket (with y0 = y1 = y2 = y3 ≠ 0 the answer can be exactly 1.0); the strict bounds of PickerSpec.CubicRoot hold in exact arithmetic only.
- `exp` and `pow`: alpha and b are reals that the constructors and setters compute from an `exp` function passed in as a parameter. `pow(b, l)` for an integer l is modelled exactly.
- The bisection's `abs(valm) < eps` test is a tolerance `tol` passed to Picker.ZeroPointCubicBinary and Picker.DigitalFractionPicker.Pick. The `abs` overload the call resolves to is not visible, so the value of the tolerance is left open.
- `size_t` arithmetic: offsets and lengths are unbounded naturals. Wrap-around of `ts - 11 + m`, `data.size() - 2`, `vsize - stop - len` and similar expressions is excluded by the requires clauses, which describe what the code needs in order not to read out of bounds. `unsigned int` wrap-around is modelled only for `L + G`.
- Picker.TrapezoidTopPicker.Pick: requires ts+m ≥ 20 rather than ts+m ≥ 11, because the stencil reads data[i−9] for the first scanned index i = ts+m−11.
- Picker.BasePicker.Pick: requires start ≤ len whenever the range check passes. With start > len the loop `i != len` would run past the end of the data.
- The `start < 0` and `stop < 0` checks compare unsigned values and can never fire, so the model has no branch for them. The exception message strings are not modelled; a thrown error is the `Err` of a `Result`.
- FilterAlgorithm.IdentityFilter.Filter, FilterAlgorithm.MWDAlgorithm.Filter, FilterAlgorithm.XiaSlowFilter.Filter, FilterAlgorithm.XiaFastFilter.Filter and FilterAlgorithm.XiaCFDFilter.Filter: the code returns a `const` reference to the filter's reused `data` buffer (to the caller's own trace for the identity filter). The model returns a `seq<real>` value, a snapshot of `data` (of the trace) at return. The aliasing is not modelled: in the code a kept result changes when the next `Filter` call overwrites the buffer or when the caller edits the trace; in the model it does not.
- Heap allocation and release of the ring buffer are not modelled; the ring is a fresh Dafny array that `Filter` uses as a local.
- The unused `l` field of TrapezoidTopPicker is kept and never read, as in the code.
- Picker.ZeroCrossPicker.Pick: the cubic branch of the loop cannot be entered (PickerSpec.CubicModeTestNeverHolds). The model runs the same loop and proves that branch unreachable, so the call to the bisection at main/Picker.cpp:292 does not occur in the model.
- The filters are separate classes, each with its own `Filter` method; they do not override one virtual `Filter` of a common base class as the code does. The shared `SlowFilter` and `FastFilter` layers hold l and m; each concrete class holds them directly.
- The configuration driver, trace reading, simulation, file output, fitting and thread pools of the rest of the program are not part of this model.

## Findings

| source | as written | input that shows it | evidently intended | confidence | as-written member | corrected member |
|---|---|---|---|---|---|---|
| main/Picker.cpp:127 | BasePicker sums data[start .. len−1], ending at `len` | data = [5, 7], start = 1, len = 1: the loop sums nothing and returns 0 | the mean of data[start, start+len), which the range check on line 125 guards | not executed | PickerSpec.BaseMeanSkipsWindow | PickerSpec.WindowMeanOfConstant |
| main/Picker.cpp:219-220 | the stencil adds data[i+9] twice and never reads data[i−7] | data[k] = k, i = 9: the stencil reads 16 on a straight ramp | the left half mirrors the right half with data[i−7], so straight edges read 0 | not executed | PickerSpec.StencilTiltsOnRamp | PickerSpec.IntendedStencilFlatOnLines |
| main/Picker.cpp:291 | the cubic-mode test `data[i] >= 0 && data[i] < 0` can never hold, so cubic mode always returns −1 | data = [0, 10, −10, 0], ts = 1, threshold 5: there is an armed fall at 1 and the answer is −1 | the test of the linear mode, data[i] ≥ 0 > data[i+1], then the cubic root after it | not executed | PickerSpec.CubicModeMissesFall | PickerSpec.IntendedCubicZeroCross |
| main/FilterAlgorithm.cpp:232-233 | esum0 adds trace[i−m] and esum1 adds trace[i−l], one sample later than their windows | trace = [0, 0, 5, 0], l = m = 1, i = 3: esum0 is 5 where the window [1, 2) sums to 0 | esum0 adds trace[i−m−1] and esum1 adds trace[i−l−1], so the three sums stay the adjacent windows | not executed | FilterSpec.XiaSlowSumsSkewed | FilterSpec.IntendedSlowSumsAreWindows |

=== FILE: FilterAlgorithm.dfy ===
/** The filters of main/FilterAlgorithm.h and main/FilterAlgorithm.cpp as
    classes. Each filter owns its parameters and one output buffer `data`
    that `Filter` resizes to the trace length, overwrites sample by sample and
    hands back; the next call on the same object overwrites it again. The
    ring buffers `r` of MWD and of the fast filter are arrays of l+1 slots
    local to `Filter`. What the outputs mean is stated in FilterSpec. */
module FilterAlgorithm {
  import opened Samples
  import opened FilterSpec

  /** `std::vector::resize`: keeps the first n entries and pads with 0. */
  function Resize(buf: seq<real>, n: nat): (r: seq<real>)
    ensures |r| == n
    ensures forall i :: 0 <= i < n && i < |buf| ==> r[i] == buf[i]
    ensures forall i :: |buf| <= i < n ==> r[i] == 0.0
  {
    if n <= |buf| then buf[..n] else buf + seq(n - |buf|, _ => 0.0)
  }

  /** The accumulation loops of the filters: s[lo] + ... + s[hi-1],
      added up sample by sample. */
  method WindowSum(s: seq<real>, lo: nat, hi: nat) returns (sum: real)
    requires lo <= hi <= |s|
    ensures sum == SumRange(s, lo, hi)
  {
    sum := 0.0;
    var i := lo;
    while i != hi
      invariant lo <= i <= hi
      invariant sum == SumRange(s, lo, i)
    {
      sum := sum + s[i];
      i := i + 1;
    }
  }

  /** The opening shared by the MWD and fast filters: the buffer resized to
      n, zero below `first`, and at `first` the sum of ring slots
      0 .. count-1 divided by l. */
  method StartOutput(buf0: seq<real>, n: nat, first: nat, r: array<real>, count: nat, l: nat)
    returns (buf: seq<real>)
    requires first < n && count <= r.Length && 0 < l
    ensures |buf| == n
    ensures forall k :: 0 <= k < first ==> buf[k] == 0.0
    ensures buf[first] == SumRange(r[..], 0, count) / l as real
    ensures forall k :: first < k < n ==> buf[k] == Resize(buf0, n)[k]
  {
    buf := Resize(buf0, n);
    var i := 0;
    while i != first
      invariant 0 <= i <= first && |buf| == n
      invariant forall k :: 0 <= k < i ==> buf[k] == 0.0
      invariant forall k :: first <= k < n ==> buf[k] == Resize(buf0, n)[k]
    {
      buf := buf[i := 0.0];
      i := i + 1;
    }
    buf := buf[first := 0.0];
    i := 0;
    while i != count
      invariant 0 <= i <= count && |buf| == n
      invariant forall k :: 0 <= k < first ==> buf[k] == 0.0
      invariant forall k :: first < k < n ==> buf[k] == Resize(buf0, n)[k]
      invariant buf[first] == SumRange(r[..], 0, i)
    {
      buf := buf[first := buf[first] + r[i]];
      i := i + 1;
    }
    buf := buf[first := buf[first] / l as real];
  }

  /** The closing back-fill of the slow and CFD filters: every sample
      below `at` takes the value at `at`; the rest is kept. */
  method RepeatBelow(buf0: seq<real>, at: nat) returns (buf: seq<real>)
    requires at < |buf0|
    ensures |buf| == |buf0|
    ensures forall k :: 0 <= k < at ==> buf[k] == buf0[at]
    ensures forall k :: at <= k < |buf| ==> buf[k] == buf0[k]
  {
    buf := buf0;
    var i := 0;
    while i != at
      invariant 0 <= i <= at && |buf| == |buf0|
      invariant forall k :: 0 <= k < i ==> buf[k] == buf0[at]
      invariant forall k :: at <= k < |buf| ==> buf[k] == buf0[k]
    {
      buf := buf[i := buf[at]];
      i := i + 1;
    }
  }

  /** The ring of the MWD filter before the main loop: r_0 from the offset
      and the first m samples, then r_1 .. r_l by the ring update; `pn` is
      left at p[m+l]. */
  method MWDFillRing(trace: Trace, l: nat, m: nat, alpha: real, offset: real) returns (r: array<real>, pn: real)
    requires Fits(trace, l, m) && offset == MWDOffset(trace, l, m)
    ensures fresh(r) && r.Length == l + 1
    ensures forall s {:trigger r[s]} :: 0 <= s <= l ==> r[s] == MWDRing(trace, l, m, alpha, s)
    ensures pn == trace[m + l] - trace[l]
  {
    pn := trace[m] - trace[0];
    var pn_1: real;
    r := new real[l + 1];
    r[0] := 0.0;
    var i := 0;
    while i <= m - 1
      invariant 0 <= i <= m
      invariant r[0] == Deviation(trace, offset, i)
    {
      r[0] := r[0] + (trace[i] - offset);
      i := i + 1;
    }
    r[0] := trace[m] - trace[0] + alpha * r[0];
    i := 1;
    while i != l + 1
      invariant 1 <= i <= l + 1
      invariant pn == trace[m + i - 1] - trace[i - 1]
      invariant forall k {:trigger r[k]} :: 0 <= k < i ==> r[k] == MWDRing(trace, l, m, alpha, k)
    {
      pn_1 := pn;
      pn := trace[m + i] - trace[i];
      r[i] := r[i - 1] + pn - pn_1 + alpha * pn_1;
      i := i + 1;
    }
  }

  /** The MWD ring holds the last l+1 ring values: with `ir` the slot of the
      newest and `wrap` the index held by slot 0, slot s holds r_{wrap+s} up
      to ir and r_{wrap-(l+1)+s} past it. When wrap is a whole number of
      turns (LapStart) this puts r_n in slot n mod (l+1): RingSlotsByModulo. */
  ghost predicate RingHolds(ring: seq<real>, rs: seq<real>, l: nat, wrap: nat, ir: nat)
  {
    && |ring| == l + 1 && ir <= l && wrap + ir < |rs|
    && (wrap == 0 ==> ir == l) && (wrap == 0 || wrap >= l + 1)
    && (forall s :: 0 <= s <= ir ==> ring[s] == rs[wrap + s])
    && (forall s :: ir < s <= l ==> ring[s] == rs[wrap - (l + 1) + s])
  }

  /** Slot n mod (l+1) of a ring of l+1 slots. */
  ghost function Slot(ring: seq<real>, l: nat, n: nat): real
    requires |ring| == l + 1
  {
    ring[n % (l + 1)]
  }

  /** r_n sits in slot n mod (l+1) for each of the l+1 values up to the newest, r_top. */
  ghost predicate RingModulo(ring: seq<real>, rs: seq<real>, l: nat, top: nat)
  {
    && |ring| == l + 1 && l <= top < |rs|
    && (forall n {:trigger Slot(ring, l, n)} :: top - l <= n <= top ==> Slot(ring, l, n) == rs[n])
  }

  /** The index slot 0 holds after `laps` whole turns of the ring, l+1
      values a turn. */
  ghost function LapStart(laps: nat, l: nat): nat
  {
    if laps == 0 then 0 else LapStart(laps - 1, l) + l + 1
  }

  /** wrap is the start of a whole turn of the ring. */
  ghost predicate WholeTurns(wrap: nat, l: nat)
  {
    exists laps: nat :: wrap == LapStart(laps, l)
  }

  /** After `laps` turns slot 0 holds index laps*(l+1). */
  lemma {:induction false} LapStartIsProduct(laps: nat, l: nat)
    ensures LapStart(laps, l) == laps * (l + 1)
  {
    if laps > 0 {
      LapStartIsProduct(laps - 1, l);
      assert laps * (l + 1) == (laps - 1) * (l + 1) + l + 1;
    }
  }

  /** A positive multiple of d is at least d. */
  lemma MulAtLeast(d: int, k: int)
    requires d > 0 && k >= 1
    ensures d * k >= d
    decreases k
  {
    if k > 1 {
      MulAtLeast(d, k - 1);
      assert d * k == d * (k - 1) + d;
    }
  }

  /** The remainder of q*d + r for 0 <= r < d is r. */
  lemma ModOfMultiplePlus(q: int, d: int, r: int)
    requires d > 0 && 0 <= r < d
    ensures (q * d + r) % d == r
  {
    var x := q * d + r;
    var q', r' := x / d, x % d;
    assert x == q' * d + r';
    var k := q - q';
    assert k * d == q * d - q' * d;
    assert k * d == r' - r;
    if k >= 1 {
      MulAtLeast(d, k);
      assert false;
    } else if -k >= 1 {
      MulAtLeast(d, -k);
      assert false;
    }
  }

  /** Slot s of lap `laps` holds an index whose remainder is s. */
  lemma LapRemainder(laps: nat, l: nat, s: nat)
    requires s <= l
    ensures (LapStart(laps, l) + s) % (l + 1) == s
  {
    LapStartIsProduct(laps, l);
    ModOfMultiplePlus(laps, l + 1, s);
  }

  /** When slot 0 starts a whole lap, slot s holding r_{wrap+s} up to ir and
      r_{wrap-(l+1)+s} past it is r_n in slot n mod (l+1). */
  lemma RingSlotsByModulo(ring: seq<real>, rs: seq<real>, l: nat, laps: nat, ir: nat)
    requires RingHolds(ring, rs, l, LapStart(laps, l), ir)
    ensures RingModulo(ring, rs, l, LapStart(laps, l) + ir)
  {
    var wrap := LapStart(laps, l);
    forall n | wrap + ir - l <= n <= wrap + ir
      ensures Slot(ring, l, n) == rs[n]
    {
      SlotOfIndex(ring, rs, l, laps, ir, n);
    }
  }

  /** One index of the window: r_n is in slot n mod (l+1). */
  lemma SlotOfIndex(ring: seq<real>, rs: seq<real>, l: nat, laps: nat, ir: nat, n: nat)
    requires RingHolds(ring, rs, l, LapStart(laps, l), ir)
    requires LapStart(laps, l) + ir - l <= n <= LapStart(laps, l) + ir
    ensures Slot(ring, l, n) == rs[n]
  {
    var wrap := LapStart(laps, l);
    if n >= wrap {
      var s := n - wrap;
      LapRemainder(laps, l, s);
      assert n % (l + 1) == s;
      assert ring[s] == rs[wrap + s];
    } else {
      var w0 := LapStart(laps - 1, l);
      assert wrap == w0 + l + 1;
      var s := n - w0;
      LapRemainder(laps - 1, l, s);
      assert n % (l + 1) == s;
      assert ring[s] == rs[wrap - (l + 1) + s];
    }
  }

  /** Writing the next value into the slot after ir keeps the ring holding
      the last l+1 values, and the slot after that then holds r_{n-l}. */
  lemma RingAdvance(ring: seq<real>, rs: seq<real>, l: nat, wrap: nat, ir: nat,
                     wrap': nat, ir': nat, nir': nat, v: real)
    requires RingHolds(ring, rs, l, wrap, ir) && wrap + ir + 1 < |rs| && v == rs[wrap + ir + 1]
    requires ir' == (if ir == l then 0 else ir + 1) && nir' == (if ir' == l then 0 else ir' + 1)
    requires wrap' == if ir == l then wrap + l + 1 else wrap
    ensures RingHolds(ring[ir' := v], rs, l, wrap', ir')
    ensures wrap' + ir' >= l && ring[ir' := v][nir'] == rs[wrap' + ir' - l]
  {
  }

  /** The value the ring update computes from r_{k-1} and the last two
      differences is r_k. */
  lemma RingStepValue(rs: seq<real>, trace: Trace, m: nat, alpha: real, k: nat, prev: real, pn: real, pn_1: real)
    requires 0 < k < |rs| && m + k < |trace| && RingStep(rs, trace, m, alpha, k)
    requires prev == rs[k - 1] && pn == Diff(trace, m, m + k) && pn_1 == Diff(trace, m, m + k - 1)
    ensures prev + pn - pn_1 + alpha * pn_1 == rs[k]
  {
  }

  /** The ring after writing r_n into the slot after the newest: it goes on
      holding the last l+1 values, each r_n in slot n mod (l+1). */
  lemma RingWriteStep(ring: seq<real>, rs: seq<real>, l: nat, wrap: nat, laps: nat,
                      pir: nat, ir: nat, nir: nat, v: real, wrap': nat, laps': nat)
    requires RingHolds(ring, rs, l, wrap, pir) && wrap + pir + 1 < |rs| && v == rs[wrap + pir + 1]
    requires wrap == LapStart(laps, l)
    requires ir == (if pir == l then 0 else pir + 1) && nir == (if ir == l then 0 else ir + 1)
    requires wrap' == (if pir == l then wrap + l + 1 else wrap)
    requires laps' == (if pir == l then laps + 1 else laps)
    ensures wrap' == LapStart(laps', l)
    ensures RingHolds(ring[ir := v], rs, l, wrap', ir) && RingModulo(ring[ir := v], rs, l, wrap' + ir)
    ensures wrap' + ir >= l && ring[ir := v][nir] == rs[wrap' + ir - l]
  {
    if pir == l {
      assert LapStart(laps', l) == LapStart(laps, l) + l + 1;
    }
    RingAdvance(ring, rs, l, wrap, pir, wrap', ir, nir, v);
    RingSlotsByModulo(ring[ir := v], rs, l, laps', ir);
  }

  /** The ring write of the MWD main loop: r_n goes into the slot after
      the newest, and the ring goes on holding the last l+1 values, each
      r_n in slot n mod (l+1); `laps` counts the completed turns. */
  method MWDRingWrite(r: array<real>, ghost rs: seq<real>, l: nat, ghost wrap: nat,
                      pir: nat, ir: nat, nir: nat, v: real) returns (ghost wrap': nat)
    requires RingHolds(r[..], rs, l, wrap, pir) && wrap + pir + 1 < |rs| && v == rs[wrap + pir + 1]
    requires WholeTurns(wrap, l)
    requires ir == (if pir == l then 0 else pir + 1) && nir == (if ir == l then 0 else ir + 1)
    modifies r
    ensures wrap' == (if pir == l then wrap + l + 1 else wrap) && wrap' + ir == wrap + pir + 1
    ensures WholeTurns(wrap', l)
    ensures RingHolds(r[..], rs, l, wrap', ir)
    ensures wrap' + ir >= l && r[ir] == v && r[nir] == rs[wrap' + ir - l]
  {
    ghost var ring := r[..];
    ghost var laps: nat :| wrap == LapStart(laps, l);
    wrap' := if pir == l then wrap + l + 1 else wrap;
    ghost var laps' := if pir == l then laps + 1 else laps;
    RingWriteStep(ring, rs, l, wrap, laps, pir, ir, nir, v, wrap', laps');
    r[ir] := v;
    assert r[..] == ring[ir := v];
  }

  /** The main loop of the MWD filter: p advances, the ring takes r_n in
      the slot after the newest, and the output moves by (r_n - r_{n-l}) / l. */
  method MWDUpdate(trace: Trace, l: nat, m: nat, alpha: real, r: array<real>, pn0: real,
                   buf0: seq<real>, ghost rs: seq<real>) returns (buf: seq<real>)
    requires Fits(trace, l, m) && r.Length == l + 1 && |buf0| == |trace| && |rs| == |trace| - m
    requires forall k :: 0 < k < |rs| ==> RingStep(rs, trace, m, alpha, k)
    requires forall s :: 0 <= s <= l ==> r[s] == rs[s]
    requires pn0 == trace[m + l] - trace[l]
    modifies r
    ensures |buf| == |trace|
    ensures forall k :: 0 <= k <= l + m ==> buf[k] == buf0[k]
    ensures forall k :: l + m < k < |buf| ==> RunningSumStep(rs, buf, l, m, k)
    ensures RingModulo(r[..], rs, l, |trace| - 1 - m)
  {
    var pn, pn_1 := pn0, 0.0;
    var ir: nat := l;
    var nir: nat := 0;
    buf := buf0;
    ghost var wrap: nat := 0;
    assert wrap == LapStart(0, l);
    var tsize := |trace|;
    var i := l + m + 1;
    while i != tsize
      invariant l + m + 1 <= i <= tsize && |buf| == tsize
      invariant RingHolds(r[..], rs, l, wrap, ir) && WholeTurns(wrap, l)
      invariant i - 1 - m == wrap + ir
      invariant nir == if ir == l then 0 else ir + 1
      invariant pn == trace[i - 1] - trace[i - 1 - m]
      invariant forall k :: 0 <= k <= l + m ==> buf[k] == buf0[k]
      invariant forall k :: l + m < k < i ==> RunningSumStep(rs, buf, l, m, k)
    {
      pn_1 := pn;
      pn := trace[i] - trace[i - m];
      var pir := ir;
      ir := nir;
      nir := if ir == l then 0 else ir + 1;
      var v := r[pir] + pn - pn_1 + alpha * pn_1;
      RingStepValue(rs, trace, m, alpha, i - m, r[pir], pn, pn_1);
      wrap := MWDRingWrite(r, rs, l, wrap, pir, ir, nir, v);
      assert r[ir] == rs[i - m] && r[nir] == rs[i - m - l];
      ghost var prev := buf;
      buf := buf[i := buf[i - 1] + (r[ir] - r[nir]) / l as real];
      RunningSumExtend(rs, prev, buf, l, m, i);
      i := i + 1;
    }
    ghost var laps: nat :| wrap == LapStart(laps, l);
    RingSlotsByModulo(r[..], rs, l, laps, ir);
  }

  /** The MWD filter past its ring set-up: the output opened with the sum
      of the l+1 ring values over l, then the main loop. */
  method MWDRun(trace: Trace, l: nat, m: nat, alpha: real, r: array<real>, pn: real,
                buf0: seq<real>, ghost rs: seq<real>) returns (buf: seq<real>)
    requires Fits(trace, l, m) && r.Length == l + 1 && |rs| == |trace| - m
    requires forall k :: 0 < k < |rs| ==> RingStep(rs, trace, m, alpha, k)
    requires forall s :: 0 <= s <= l ==> r[s] == rs[s]
    requires pn == trace[m + l] - trace[l]
    modifies r
    ensures IsMWDOutput(rs, buf, l, m)
  {
    SumRangeShift(r[..], rs, 0, l + 1, 0);
    buf := StartOutput(buf0, |trace|, l + m, r, l + 1, l);
    ghost var start := buf;
    assert start[l + m] == SumRange(rs, 0, l + 1) / l as real;
    buf := MWDUpdate(trace, l, m, alpha, r, pn, buf, rs);
    MWDOutputFromSteps(rs, start, buf, l, m);
  }

  /** An output that opens as the MWD filter opens and then takes the
      incremental steps is an MWD output. */
  lemma MWDOutputFromSteps(rs: seq<real>, start: seq<real>, out: seq<real>, l: nat, m: nat)
    requires 0 < l && l + m < |out| && |rs| == |out| - m && |start| == |out|
    requires forall k :: 0 <= k < l + m ==> start[k] == 0.0
    requires start[l + m] == SumRange(rs, 0, l + 1) / l as real
    requires forall k :: 0 <= k <= l + m ==> out[k] == start[k]
    requires forall k :: l + m < k < |out| ==> RunningSumStep(rs, out, l, m, k)
    ensures IsMWDOutput(rs, out, l, m)
  {
  }

  /** The ring of the fast filter before the main loop: slots 0 .. l-1 hold
      the differences of samples m+1 .. m+l; slot l is not written. */
  method FastFillRing(trace: Trace, l: nat, m: nat) returns (r: array<real>)
    requires Fits(trace, l, m)
    ensures fresh(r) && r.Length == l + 1
    ensures forall s :: 0 <= s < l ==> r[s] == trace[m + s + 1] - trace[s + 1]
  {
    r := new real[l + 1];
    var i := 0;
    while i != l
      invariant 0 <= i <= l
      invariant forall s :: 0 <= s < i ==> r[s] == trace[m + s + 1] - trace[s + 1]
    {
      r[i] := trace[m + i + 1] - trace[i + 1];
      i := i + 1;
    }
  }

  /** The fast ring: slot s holds the difference of sample `lap + s` up to
      the newest slot ir and of sample `lap - (l+1) + s` past it; before
      the first wrap the slot past ir has not been written. */
  ghost predicate FastRingHolds(ring: seq<real>, trace: Trace, l: nat, m: nat, lap: nat, ir: nat)
  {
    && |ring| == l + 1 && ir <= l && m + 1 <= lap && lap + ir < |trace|
    && (lap == m + 1 || lap >= m + l + 2) && (lap == m + 1 ==> l <= ir + 1)
    && (forall s :: 0 <= s <= ir ==> ring[s] == Diff(trace, m, lap + s))
    && (lap >= m + l + 2 ==> forall s :: ir < s <= l ==> ring[s] == Diff(trace, m, lap - (l + 1) + s))
  }

  /** Writing the next difference into the slot after ir keeps the ring
      holding the last values, and the slot read next is always written:
      it holds the difference l samples back. */
  lemma FastRingAdvance(ring: seq<real>, trace: Trace, l: nat, m: nat, lap: nat, ir: nat,
                         lap': nat, ir': nat, nir': nat, v: real)
    requires 0 < l && FastRingHolds(ring, trace, l, m, lap, ir) && lap + ir + 1 < |trace|
    requires lap + ir + 1 >= l + m + 1 && v == Diff(trace, m, lap + ir + 1)
    requires ir' == (if ir == l then 0 else ir + 1) && nir' == (if ir' == l then 0 else ir' + 1)
    requires lap' == if ir == l then lap + l + 1 else lap
    ensures FastRingHolds(ring[ir' := v], trace, l, m, lap', ir')
    ensures lap' + ir' - l >= m + 1 && ring[ir' := v][nir'] == Diff(trace, m, lap' + ir' - l)
  {
  }

  /** The ring write of the fast main loop: the newest difference goes
      into the slot after the newest, and the slot read next holds the
      difference l samples back. */
  method FastRingWrite(r: array<real>, trace: Trace, l: nat, m: nat, ghost lap: nat,
                       pir: nat, ir: nat, nir: nat, v: real) returns (ghost lap': nat)
    requires 0 < l && FastRingHolds(r[..], trace, l, m, lap, pir) && lap + pir + 1 < |trace|
    requires lap + pir + 1 >= l + m + 1 && v == Diff(trace, m, lap + pir + 1)
    requires ir == (if pir == l then 0 else pir + 1) && nir == (if ir == l then 0 else ir + 1)
    modifies r
    ensures lap' == (if pir == l then lap + l + 1 else lap) && lap' + ir == lap + pir + 1
    ensures FastRingHolds(r[..], trace, l, m, lap', ir)
    ensures lap' + ir - l >= m + 1 && r[ir] == v && r[nir] == Diff(trace, m, lap' + ir - l)
  {
    ghost var ring := r[..];
    r[ir] := v;
    lap' := if pir == l then lap + l + 1 else lap;
    FastRingAdvance(ring, trace, l, m, lap, pir, lap', ir, nir, v);
    assert r[..] == ring[ir := v];
  }

  /** The main loop of the fast filter: the ring takes the newest
      difference in the slot after the newest, and the output moves by the
      newest difference less the one l samples back, over l. */
  method FastUpdate(trace: Trace, l: nat, m: nat, r: array<real>, buf0: seq<real>) returns (buf: seq<real>)
    requires Fits(trace, l, m) && r.Length == l + 1 && |buf0| == |trace|
    requires forall s :: 0 <= s < l ==> r[s] == trace[m + s + 1] - trace[s + 1]
    requires forall k :: 0 <= k <= l + m ==> buf0[k] == FastAt(trace, l, m, k)
    modifies r
    ensures |buf| == |trace|
    ensures forall k :: 0 <= k < |buf| ==> buf[k] == FastAt(trace, l, m, k)
  {
    var ir: nat := l - 1;
    var nir: nat := l;
    buf := buf0;
    ghost var lap: nat := m + 1;
    var tsize := |trace|;
    var i := l + m + 1;
    while i != tsize
      invariant l + m + 1 <= i <= tsize && |buf| == tsize
      invariant FastRingHolds(r[..], trace, l, m, lap, ir)
      invariant i - 1 == lap + ir
      invariant nir == if ir == l then 0 else ir + 1
      invariant forall k :: 0 <= k <= l + m ==> buf[k] == buf0[k]
      invariant forall k :: l + m < k < i ==> FastStepAt(trace, l, m, buf, k)
    {
      var pir := ir;
      ir := nir;
      nir := if ir == l then 0 else ir + 1;
      lap := FastRingWrite(r, trace, l, m, lap, pir, ir, nir, trace[i] - trace[i - m]);
      assert r[ir] == Diff(trace, m, i) && r[nir] == Diff(trace, m, i - l);
      ghost var prev := buf;
      buf := buf[i := buf[i - 1] + (r[ir] - r[nir]) / l as real];
      FastStepsExtend(trace, l, m, prev, buf, i);
      i := i + 1;
    }
    forall k | 0 <= k < |buf|
      ensures buf[k] == FastAt(trace, l, m, k)
    {
      FastOutputFromSteps(trace, l, m, buf, k);
    }
  }

  /** The three accumulation loops of the slow filter, over [0, l), [l, m)
      and [m, l+m); the code runs them once for the baseline and once to
      start the output. */
  method ThreeSums(trace: Trace, l: nat, m: nat) returns (e: SlowSums)
    requires Fits(trace, l, m) && l <= m
    ensures e == InitialSlowSums(trace, l, m)
  {
    var sum0 := WindowSum(trace, 0, l);
    var sum1 := WindowSum(trace, l, m);
    var sum2 := WindowSum(trace, m, l + m);
    e := SlowSums(sum0, sum1, sum2);
  }

  /** The main loop of the slow filter: the three sums updated as the code
      updates them, each output their weighted sum less the baseline. */
  method SlowUpdate(trace: Trace, l: nat, m: nat, co: SlowCoefficients, cbase: real,
                    buf0: seq<real>, e: SlowSums) returns (buf: seq<real>)
    requires Fits(trace, l, m) && l <= m && |buf0| == |trace| && e == InitialSlowSums(trace, l, m)
    ensures |buf| == |trace|
    ensures forall k :: 0 <= k <= l + m ==> buf[k] == buf0[k]
    ensures forall k {:trigger buf[k]} :: l + m < k < |buf| ==> buf[k] == Combine(co, SlowSumsAt(trace, l, m, k)) - cbase
  {
    var c0, c1, c2 := co.c0, co.c1, co.c2;
    var esum0, esum1, esum2 := e.e0, e.e1, e.e2;
    buf := buf0;
    var tsize := |trace|;
    var i := l + m + 1;
    while i != tsize
      invariant l + m + 1 <= i <= tsize && |buf| == tsize
      invariant SlowSums(esum0, esum1, esum2) == SlowSumsAt(trace, l, m, i - 1)
      invariant forall k :: 0 <= k <= l + m ==> buf[k] == buf0[k]
      invariant forall k {:trigger buf[k]} :: l + m < k < i ==> buf[k] == Combine(co, SlowSumsAt(trace, l, m, k)) - cbase
    {
      esum0 := esum0 + (trace[i - m] - trace[i - l - m - 1]);
      esum1 := esum1 + (trace[i - l] - trace[i - m - 1]);
      esum2 := esum2 + (trace[i - 1] - trace[i - l - 1]);
      buf := buf[i := c0 * esum0 + c1 * esum1 + c2 * esum2 - cbase];
      i := i + 1;
    }
  }

  /** The first loop of the CFD filter: from sample d on, the attenuated
      fast output less the fast output d samples back. */
  method CFDCombine(buf0: seq<real>, fast: seq<real>, d: nat, factor: real) returns (buf: seq<real>)
    requires d < |fast|
    ensures |buf| == |fast|
    ensures forall k :: d <= k < |buf| ==> buf[k] == fast[k] * factor - fast[k - d]
  {
    var vsize := |fast|;
    buf := Resize(buf0, vsize);
    var i := d;
    while i != vsize
      invariant d <= i <= vsize && |buf| == vsize
      invariant forall k :: d <= k < i ==> buf[k] == fast[k] * factor - fast[k - d]
    {
      buf := buf[i := fast[i] * factor - fast[i - d]];
      i := i + 1;
    }
  }

  /** The base filter: a usable stage that passes the trace through. Its
      `Filter` hands back the input itself, not its own buffer. */
  class IdentityFilter {
    var data: seq<real>

    constructor ()
      ensures data == []
    {
      data := [];
    }

    method Filter(trace: Trace) returns (out: Trace)
      ensures out == trace
    {
      out := trace;
    }

    method Clone() returns (c: IdentityFilter)
      ensures fresh(c) && c.data == []
    {
      c := new IdentityFilter();
    }
  }

  /** Moving-window deconvolution: the slow (energy) filter with pole-zero
      correction alpha = exp(dt/tau) - 1. */
  class MWDAlgorithm {
    var l: nat
    var m: nat
    var alpha: real
    var data: seq<real>

    constructor (l_: nat, m_: nat, alpha_: real)
      ensures l == l_ && m == m_ && alpha == alpha_ && data == []
    {
      l, m, alpha := l_, m_, alpha_;
      data := [];
    }

    /** Lengths L (rise) and G (gap) and decay time tau in time units of
        the sampling period dt; `exp` is the exponential of the C library. */
    constructor FromTimes(L: U32, G: U32, tau: U32, dt: U32, exp: real -> real)
      requires 0 < dt && 0 < tau
      ensures l == ToSamples(L, dt) && m == ToSamples(WrapAdd(L, G), dt)
      ensures alpha == exp(dt as real / tau as real) - 1.0 && data == []
    {
      l, m := ToSamples(L, dt), ToSamples(WrapAdd(L, G), dt);
      alpha := exp(dt as real / tau as real) - 1.0;
      data := [];
    }

    method Clone() returns (c: MWDAlgorithm)
      ensures fresh(c) && c.l == l && c.m == m && c.alpha == alpha && c.data == []
    {
      c := new MWDAlgorithm(l, m, alpha);
    }

    method GetParameters() returns (l_: nat, m_: nat)
      ensures l_ == l && m_ == m
    {
      l_, m_ := l, m;
    }

    method SetParameters(l_: nat, m_: nat)
      modifies this`l, this`m
      ensures l == l_ && m == m_
    {
      l, m := l_, m_;
    }

    method SetTimeParameters(L: U32, G: U32, tau: U32, dt: U32, exp: real -> real)
      requires 0 < dt && 0 < tau
      modifies this`l, this`m, this`alpha
      ensures l == ToSamples(L, dt) && m == ToSamples(WrapAdd(L, G), dt)
      ensures alpha == exp(dt as real / tau as real) - 1.0
    {
      l, m := ToSamples(L, dt), ToSamples(WrapAdd(L, G), dt);
      alpha := exp(dt as real / tau as real) - 1.0;
    }

    method SetSampleParameters(l_: nat, m_: nat, tau: U32, dt: U32, exp: real -> real)
      requires 0 < tau
      modifies this`l, this`m, this`alpha
      ensures l == l_ && m == m_ && alpha == exp(dt as real / tau as real) - 1.0
    {
      l, m := l_, m_;
      alpha := exp(dt as real / tau as real) - 1.0;
    }

    /** The ring buffer holds the last l+1 values r_n, r_n in slot
        n mod (l+1): `ir` is the slot of the newest, `nir` the next one,
        which still holds r_{n-l}. */
    method Filter(trace: Trace) returns (out: seq<real>)
      requires Fits(trace, l, m)
      modifies this`data
      ensures out == data
      ensures IsMWDOutput(MWDRings(trace, l, m, alpha), out, l, m)
    {
      ghost var rs := MWDRings(trace, l, m, alpha);
      var offset := WindowSum(trace, 0, l + m);
      offset := offset / (l + m) as real;
      var r, pn := MWDFillRing(trace, l, m, alpha, offset);
      MWDRingsStep(trace, l, m, alpha);
      var buf := MWDRun(trace, l, m, alpha, r, pn, data, rs);
      data := buf;
      out := data;
    }
  }

  /** The Xia slow filter: three sliding sums weighted by coefficients
      derived from the decay factor b = exp(-dt/tau), less a baseline taken
      at the first window; the samples below l+m repeat the value at l+m. */
  class XiaSlowFilter {
    var l: nat
    var m: nat
    var b: real
    var data: seq<real>

    constructor (l_: nat, m_: nat, b_: real)
      ensures l == l_ && m == m_ && b == b_ && data == []
    {
      l, m, b := l_, m_, b_;
      data := [];
    }

    constructor FromTimes(L: U32, G: U32, tau: U32, dt: U32, exp: real -> real)
      requires 0 < dt && 0 < tau
      ensures l == ToSamples(L, dt) && m == ToSamples(WrapAdd(L, G), dt)
      ensures b == exp(-(dt as real) / tau as real) && data == []
    {
      l, m := ToSamples(L, dt), ToSamples(WrapAdd(L, G), dt);
      b := exp(-(dt as real) / tau as real);
      data := [];
    }

    method Clone() returns (c: XiaSlowFilter)
      ensures fresh(c) && c.l == l && c.m == m && c.b == b && c.data == []
    {
      c := new XiaSlowFilter(l, m, b);
    }

    method GetParameters() returns (l_: nat, m_: nat)
      ensures l_ == l && m_ == m
    {
      l_, m_ := l, m;
    }

    method SetParameters(l_: nat, m_: nat)
      modifies this`l, this`m
      ensures l == l_ && m == m_
    {
      l, m := l_, m_;
    }

    method SetTimeParameters(L: U32, G: U32, tau: U32, dt: U32, exp: real -> real)
      requires 0 < dt && 0 < tau
      modifies this`l, this`m, this`b
      ensures l == ToSamples(L, dt) && m == ToSamples(WrapAdd(L, G), dt)
      ensures b == exp(-(dt as real) / tau as real)
    {
      l, m := ToSamples(L, dt), ToSamples(WrapAdd(L, G), dt);
      b := exp(-(dt as real) / tau as real);
    }

    method SetSampleParameters(l_: nat, m_: nat, tau: U32, dt: U32, exp: real -> real)
      requires 0 < tau
      modifies this`l, this`m, this`b
      ensures l == l_ && m == m_ && b == exp(-(dt as real) / tau as real)
    {
      l, m := l_, m_;
      b := exp(-(dt as real) / tau as real);
    }

    method Filter(trace: Trace) returns (out: seq<real>)
      requires Fits(trace, l, m) && l <= m && Pow(b, l) != 1.0
      modifies this`data
      ensures out == data && |out| == |trace|
      ensures forall i :: 0 <= i < |out| ==> out[i] == SlowAt(trace, l, m, b, i)
    {
      var co := XiaSlowCoefficients(b, l);
      var c0, c1, c2 := co.c0, co.c1, co.c2;
      // baseline
      var bsums := ThreeSums(trace, l, m);
      var bsum0, bsum1, bsum2 := bsums.e0, bsums.e1, bsums.e2;
      var cbase := c0 * bsum0 + c1 * bsum1 + c2 * bsum2;
      // filter output
      var buf := Resize(data, |trace|);
      var esums := ThreeSums(trace, l, m);
      var esum0, esum1, esum2 := esums.e0, esums.e1, esums.e2;
      buf := buf[l + m := c0 * esum0 + c1 * esum1 + c2 * esum2 - cbase];
      buf := SlowUpdate(trace, l, m, co, cbase, buf, SlowSums(esum0, esum1, esum2));
      buf := RepeatBelow(buf, l + m);
      SlowOutput(trace, l, m, b, cbase, buf);
      data := buf;
      out := data;
    }
  }

  /** The Xia fast (timing) filter: a moving average over l samples of the
      difference trace[n] - trace[n-m], kept in a ring of l+1 slots. */
  class XiaFastFilter {
    var l: nat
    var m: nat
    var data: seq<real>

    constructor (l_: nat, m_: nat)
      ensures l == l_ && m == m_ && data == []
    {
      l, m := l_, m_;
      data := [];
    }

    constructor FromTimes(L: U32, G: U32, dt: U32)
      requires 0 < dt
      ensures l == ToSamples(L, dt) && m == ToSamples(WrapAdd(L, G), dt) && data == []
    {
      l, m := ToSamples(L, dt), ToSamples(WrapAdd(L, G), dt);
      data := [];
    }

    method Clone() returns (c: XiaFastFilter)
      ensures fresh(c) && c.l == l && c.m == m && c.data == []
    {
      c := new XiaFastFilter(l, m);
    }

    method GetParameters() returns (l_: nat, m_: nat)
      ensures l_ == l && m_ == m
    {
      l_, m_ := l, m;
    }

    method SetParameters(l_: nat, m_: nat)
      modifies this`l, this`m
      ensures l == l_ && m == m_
    {
      l, m := l_, m_;
    }

    method SetTimeParameters(L: U32, G: U32, dt: U32)
      requires 0 < dt
      modifies this`l, this`m
      ensures l == ToSamples(L, dt) && m == ToSamples(WrapAdd(L, G), dt)
    {
      l, m := ToSamples(L, dt), ToSamples(WrapAdd(L, G), dt);
    }

    /** Slot s of the ring holds the difference of sample `lap + s` when
        s <= ir, and of sample `lap - (l+1) + s` otherwise; a slot whose
        sample would lie below m+1 has not been written yet (only slot l
        before the first update), and it is never the one read. */
    method Filter(trace: Trace) returns (out: seq<real>)
      requires Fits(trace, l, m)
      modifies this`data
      ensures out == data && |out| == |trace|
      ensures forall i :: 0 <= i < |out| ==> out[i] == FastAt(trace, l, m, i)
    {
      // DC offset, computed and never used
      var offset := WindowSum(trace, 0, l + m);
      offset := offset / (l + m) as real;
      var r := FastFillRing(trace, l, m);
      DiffSumOfSlots(trace, m, r[..], l);
      var buf := StartOutput(data, |trace|, l + m, r, l, l);
      buf := FastUpdate(trace, l, m, r, buf);
      data := buf;
      out := data;
    }
  }

  /** The CFD filter: the output of its own embedded fast filter, attenuated
      by 1 - w/8, less the same output d samples earlier; the samples below
      d repeat the value at d. */
  class XiaCFDFilter {
    const fastFilter: XiaFastFilter
    var l: nat
    var m: nat
    var d: nat
    var w: U32
    var data: seq<real>

    /** The embedded fast filter always runs with the CFD filter's own l and m. */
    ghost predicate Valid()
      reads this, fastFilter
    {
      fastFilter.l == l && fastFilter.m == m
    }

    constructor (l_: nat, m_: nat, delay_: nat, factor_: U32)
      ensures Valid() && fresh(fastFilter)
      ensures l == l_ && m == m_ && d == delay_ && w == factor_ && data == [] && fastFilter.data == []
    {
      fastFilter := new XiaFastFilter(l_, m_);
      l, m, d, w := l_, m_, delay_, factor_;
      data := [];
    }

    constructor FromTimes(L: U32, G: U32, D: U32, factor_: U32, dt: U32)
      requires 0 < dt
      ensures Valid() && fresh(fastFilter)
      ensures l == ToSamples(L, dt) && m == ToSamples(WrapAdd(L, G), dt) && d == ToSamples(D, dt)
      ensures w == factor_ && data == [] && fastFilter.data == []
    {
      fastFilter := new XiaFastFilter(ToSamples(L, dt), ToSamples(WrapAdd(L, G), dt));
      l, m, d, w := ToSamples(L, dt), ToSamples(WrapAdd(L, G), dt), ToSamples(D, dt), factor_;
      data := [];
    }

    /** The copy owns a fresh embedded fast filter: nothing is shared. */
    method Clone() returns (c: XiaCFDFilter)
      ensures fresh(c) && fresh(c.fastFilter) && c.Valid()
      ensures c.l == l && c.m == m && c.d == d && c.w == w && c.data == []
    {
      c := new XiaCFDFilter(l, m, d, w);
    }

    method SetParameters(l_: nat, m_: nat, d_: nat, w_: U32)
      modifies this`l, this`m, this`d, this`w, fastFilter`l, fastFilter`m
      ensures Valid()
      ensures l == l_ && m == m_ && d == d_ && w == w_
    {
      l, m := l_, m_;
      fastFilter.SetParameters(l, m);
      d, w := d_, w_;
    }

    method SetTimeParameters(L: U32, G: U32, D: U32, W: U32, dt: U32)
      requires 0 < dt
      modifies this`l, this`m, this`d, this`w, fastFilter`l, fastFilter`m
      ensures Valid()
      ensures l == ToSamples(L, dt) && m == ToSamples(WrapAdd(L, G), dt) && d == ToSamples(D, dt) && w == W
    {
      SetParameters(ToSamples(L, dt), ToSamples(WrapAdd(L, G), dt), ToSamples(D, dt), W);
    }

    /** Changes the fast-filter lengths, here and in the embedded filter, and keeps d and w. */
    method SetFastFilterParameters(l_: nat, m_: nat)
      modifies this`l, this`m, this`d, this`w, fastFilter`l, fastFilter`m
      ensures Valid()
      ensures l == l_ && m == m_ && d == old(d) && w == old(w)
    {
      SetParameters(l_, m_, d, w);
    }

    method Filter(trace: Trace) returns (out: seq<real>)
      requires Valid() && Fits(trace, l, m) && d < |trace|
      modifies this`data, fastFilter`data
      ensures Valid() && out == data && |out| == |trace|
      ensures forall i :: d <= i < |out| ==> out[i] == CFDAt(trace, l, m, d, w, i)
      ensures forall i :: 0 <= i < d ==> out[i] == out[d]
      ensures |fastFilter.data| == |trace|
      ensures forall i :: 0 <= i < |trace| ==> fastFilter.data[i] == FastAt(trace, l, m, i)
    {
      var fast := fastFilter.Filter(trace);
      var factor := 1.0 - w as real / 8.0;
      var buf := CFDCombine(data, fast, d, factor);
      buf := RepeatBelow(buf, d);
      CFDFromFast(trace, l, m, d, w, fast, buf);
      data := buf;
      out := data;
    }
  }

  /** Changing a clone leaves the original alone: the original still filters
      with the parameters it had before the clone was made and changed. */
  method CloneIndependence(a: XiaCFDFilter, trace: Trace, l2: nat, m2: nat) returns (out: seq<real>)
    requires a.Valid() && Fits(trace, a.l, a.m) && a.d < |trace|
    modifies a, a.fastFilter
    ensures |out| == |trace|
    ensures forall i :: old(a.d) <= i < |out| ==> out[i] == CFDAt(trace, old(a.l), old(a.m), old(a.d), old(a.w), i)
  {
    var b := a.Clone();
    b.SetFastFilterParameters(l2, m2);
    out := a.Filter(trace);
  }
}

=== FILE: FilterSpec.dfy ===
/** What the filters of main/FilterAlgorithm.cpp compute, stated sample by
    sample over real amplitudes, and the properties of those outputs.

    Every filter reads a trace of N samples with integer lengths l (rise) and
    m (rise plus gap) and produces N samples. The code checks none of its
    index arithmetic: callers guarantee l > 0, m > 0 and N >= l + m + 1. */
module FilterSpec {
  import opened Samples

  /** The shape every filter relies on without checking it. */
  predicate Fits(trace: Trace, l: nat, m: nat)
  {
    0 < l && 0 < m && l + m + 1 <= |trace|
  }

  /** p[n] = trace[n] - trace[n-m], the m-sample difference both the MWD
      ring and the fast filter are built on. */
  function Diff(trace: Trace, m: nat, n: nat): real
    requires m <= n < |trace|
  {
    trace[n] - trace[n - m]
  }

  /** p[lo] + ... + p[hi-1]. */
  function DiffSum(trace: Trace, m: nat, lo: nat, hi: nat): real
    requires m <= lo <= hi <= |trace|
    decreases hi - lo
  {
    if lo == hi then 0.0 else DiffSum(trace, m, lo, hi - 1) + Diff(trace, m, hi - 1)
  }

  /** A sum of differences is the window sum less the window m samples back. */
  lemma {:induction false} DiffSumTelescopes(trace: Trace, m: nat, lo: nat, hi: nat)
    requires m <= lo <= hi <= |trace|
    ensures DiffSum(trace, m, lo, hi) == SumRange(trace, lo, hi) - SumRange(trace, lo - m, hi - m)
    decreases hi - lo
  {
    if lo < hi {
      DiffSumTelescopes(trace, m, lo, hi - 1);
    }
  }

  /** The ring slots summed at the first fast output hold p[m+1] .. p[m+l]. */
  lemma {:induction false} DiffSumOfSlots(trace: Trace, m: nat, r: seq<real>, n: nat)
    requires n <= |r| && m + 1 + n <= |trace|
    requires forall s :: 0 <= s < n ==> r[s] == trace[m + s + 1] - trace[s + 1]
    ensures SumRange(r, 0, n) == DiffSum(trace, m, m + 1, m + 1 + n)
  {
    if n > 0 {
      DiffSumOfSlots(trace, m, r, n - 1);
    }
  }

  // ---------------------------------------------------------------------
  // MWD (moving-window deconvolution)
  // ---------------------------------------------------------------------

  /** DC offset: the mean of the first l+m samples. */
  function MWDOffset(trace: Trace, l: nat, m: nat): real
    requires Fits(trace, l, m)
  {
    SumRange(trace, 0, l + m) / (l + m) as real
  }

  /** (trace[0] - offset) + ... + (trace[n-1] - offset), term by term. */
  function Deviation(trace: Trace, offset: real, n: nat): real
    requires n <= |trace|
  {
    if n == 0 then 0.0 else Deviation(trace, offset, n - 1) + (trace[n - 1] - offset)
  }

  /** r_k, the pole-zero corrected running sum at sample m + k:
      r_0 = p[m] + alpha * Σ_{i<m} (trace[i] - offset) and
      r_k = r_{k-1} + p[m+k] - p[m+k-1] + alpha * p[m+k-1]. */
  function MWDRing(trace: Trace, l: nat, m: nat, alpha: real, k: nat): real
    requires Fits(trace, l, m) && m + k < |trace|
  {
    if k == 0 then Diff(trace, m, m) + alpha * Deviation(trace, MWDOffset(trace, l, m), m)
    else MWDRing(trace, l, m, alpha, k - 1) + Diff(trace, m, m + k) - Diff(trace, m, m + k - 1)
         + alpha * Diff(trace, m, m + k - 1)
  }

  /** The whole sequence r_0, r_1, ..., r_{N-m-1}. */
  function MWDRings(trace: Trace, l: nat, m: nat, alpha: real): (rs: seq<real>)
    requires Fits(trace, l, m)
    ensures |rs| == |trace| - m
    ensures forall k :: 0 <= k < |rs| ==> rs[k] == MWDRing(trace, l, m, alpha, k)
  {
    seq(|trace| - m, k requires 0 <= k < |trace| - m => MWDRing(trace, l, m, alpha, k))
  }

  /** r_k follows from r_{k-1} and the differences p as the ring update computes it. */
  predicate RingStep(rs: seq<real>, trace: Trace, m: nat, alpha: real, k: nat)
    requires 0 < k < |rs| && m + k < |trace|
  {
    rs[k] == rs[k - 1] + Diff(trace, m, m + k) - Diff(trace, m, m + k - 1) + alpha * Diff(trace, m, m + k - 1)
  }

  lemma MWDRingsStep(trace: Trace, l: nat, m: nat, alpha: real)
    requires Fits(trace, l, m)
    ensures var rs := MWDRings(trace, l, m, alpha);
            forall k :: 0 < k < |rs| ==> RingStep(rs, trace, m, alpha, k)
  {
  }

  /** The MWD output as the code builds it from the ring values rs: zero
      below l+m, the sum of the l+1 ring values r_0..r_l over l at l+m, and
      from there on the incremental update s[i] = s[i-1] + (r_n - r_{n-l}) / l
      with n = i-m. */
  predicate IsMWDOutput(rs: seq<real>, out: seq<real>, l: nat, m: nat)
  {
    && 0 < l && l + m < |out| && |rs| == |out| - m
    && (forall i :: 0 <= i < l + m ==> out[i] == 0.0)
    && out[l + m] == SumRange(rs, 0, l + 1) / l as real
    && (forall i :: l + m < i < |out| ==> RunningSumStep(rs, out, l, m, i))
  }

  /** One incremental MWD step: s[i] = s[i-1] + (r_{i-m} - r_{i-m-l}) / l. */
  predicate RunningSumStep(rs: seq<real>, out: seq<real>, l: nat, m: nat, i: nat)
    requires 0 < l && l + m < i < |out| && |rs| == |out| - m
  {
    out[i] == out[i - 1] + (rs[i - m] - rs[i - m - l]) / l as real
  }

  /** Appending one more incremental step keeps the earlier ones. */
  lemma RunningSumExtend(rs: seq<real>, prev: seq<real>, out: seq<real>, l: nat, m: nat, i: nat)
    requires 0 < l && l + m < i < |prev| && |rs| == |prev| - m
    requires forall k :: l + m < k < i ==> RunningSumStep(rs, prev, l, m, k)
    requires out == prev[i := prev[i - 1] + (rs[i - m] - rs[i - m - l]) / l as real]
    ensures forall k :: l + m < k <= i ==> RunningSumStep(rs, out, l, m, k)
  {
    forall k | l + m < k <= i
      ensures RunningSumStep(rs, out, l, m, k)
    {
      if k < i {
        assert RunningSumStep(rs, prev, l, m, k);
      }
    }
  }

  /** Closed form of the MWD output. Because the first output sums l+1 ring
      values while every update swaps r_{n-l} for r_n, the output past l+m is
      the sum of the last l ring values plus r_0, over l: r_0 never leaves. */
  lemma {:induction false} MWDClosedForm(rs: seq<real>, out: seq<real>, l: nat, m: nat, i: nat)
    requires IsMWDOutput(rs, out, l, m) && l + m < i < |out|
    ensures out[i] == (rs[0] + SumRange(rs, i - m - l + 1, i - m + 1)) / l as real
  {
    var n := i - m;
    var d := l as real;
    assert RunningSumStep(rs, out, l, m, i);
    if i == l + m + 1 {
      SumRangeSplit(rs, 0, 1, l + 1);
      assert SumRange(rs, 0, 1) == rs[0];
      SumRangeSlide(rs, 1, l + 1);
      DivAdd(SumRange(rs, 0, l + 1), rs[n] - rs[n - l], d);
    } else {
      MWDClosedForm(rs, out, l, m, i - 1);
      SumRangeSlide(rs, n - l, n);
      DivAdd(rs[0] + SumRange(rs, n - l, n), rs[n] - rs[n - l], d);
    }
  }

  lemma {:induction false} DeviationOfConstant(trace: Trace, c: real, n: nat)
    requires n <= |trace|
    requires forall j :: 0 <= j < |trace| ==> trace[j] == c
    ensures Deviation(trace, c, n) == 0.0
  {
    if n > 0 {
      DeviationOfConstant(trace, c, n - 1);
    }
  }

  lemma {:induction false} MWDRingOfConstant(trace: Trace, l: nat, m: nat, alpha: real, c: real, k: nat)
    requires Fits(trace, l, m) && m + k < |trace|
    requires forall j :: 0 <= j < |trace| ==> trace[j] == c
    ensures MWDRing(trace, l, m, alpha, k) == 0.0
  {
    if k == 0 {
      SumRangeConstant(trace, 0, l + m, c);
      assert MWDOffset(trace, l, m) == c;
      DeviationOfConstant(trace, c, m);
    } else {
      MWDRingOfConstant(trace, l, m, alpha, c, k - 1);
    }
  }

  /** DC blocking: on a flat trace every ring value is zero, so the whole
      MWD output is zero, whatever l, m and alpha are. */
  lemma MWDBlocksDC(trace: Trace, l: nat, m: nat, alpha: real, c: real, out: seq<real>)
    requires Fits(trace, l, m) && IsMWDOutput(MWDRings(trace, l, m, alpha), out, l, m)
    requires forall j :: 0 <= j < |trace| ==> trace[j] == c
    ensures forall i :: 0 <= i < |out| ==> out[i] == 0.0
  {
    var rs := MWDRings(trace, l, m, alpha);
    forall k | 0 <= k < |rs|
      ensures rs[k] == 0.0
    {
      MWDRingOfConstant(trace, l, m, alpha, c, k);
    }
    ZeroRingsGiveZeroOutput(rs, out, l, m);
  }

  lemma ZeroRingsGiveZeroOutput(rs: seq<real>, out: seq<real>, l: nat, m: nat)
    requires IsMWDOutput(rs, out, l, m)
    requires forall k :: 0 <= k < |rs| ==> rs[k] == 0.0
    ensures forall i :: 0 <= i < |out| ==> out[i] == 0.0
  {
    SumRangeConstant(rs, 0, l + 1, 0.0);
    forall i | l + m < i < |out|
      ensures out[i] == 0.0
    {
      MWDClosedForm(rs, out, l, m, i);
      SumRangeConstant(rs, i - m - l + 1, i - m + 1, 0.0);
    }
  }

  // ---------------------------------------------------------------------
  // Xia slow filter (exponential pole, three sliding sums)
  // ---------------------------------------------------------------------

  datatype SlowCoefficients = SlowCoefficients(c0: real, c1: real, c2: real)

  /** c0 = -(1-b)·4·b^l / (1-b^l), c1 = (1-b)·4, c2 = (1-b)·4 / (1-b^l). */
  function XiaSlowCoefficients(b: real, l: nat): (c: SlowCoefficients)
    requires Pow(b, l) != 1.0
    ensures c.c1 == (1.0 - b) * 4.0
    ensures c.c2 * (1.0 - Pow(b, l)) == c.c1
    ensures c.c0 == -c.c2 * Pow(b, l)
  {
    var g := (1.0 - b) * 4.0;
    var q := 1.0 - Pow(b, l);
    SlowCoefficients(-g * Pow(b, l) / q, g, g / q)
  }

  /** The three running sums esum0, esum1, esum2. */
  datatype SlowSums = SlowSums(e0: real, e1: real, e2: real)

  function Combine(c: SlowCoefficients, e: SlowSums): real
  {
    c.c0 * e.e0 + c.c1 * e.e1 + c.c2 * e.e2
  }

  /** The sums at index l+m, summed directly over [0,l), [l,m) and [m,l+m);
      the baseline sums bsum0..bsum2 are the same three sums. */
  function InitialSlowSums(trace: Trace, l: nat, m: nat): SlowSums
    requires Fits(trace, l, m) && l <= m
  {
    SlowSums(SumRange(trace, 0, l), SumRange(trace, l, m), SumRange(trace, m, l + m))
  }

  /** The sums after the update for index i, as the code updates them:
      esum0 takes trace[i-m] and drops trace[i-l-m-1], esum1 takes
      trace[i-l] and drops trace[i-m-1], esum2 takes trace[i-1] and drops
      trace[i-l-1]. */
  function SlowSumsAt(trace: Trace, l: nat, m: nat, i: nat): SlowSums
    requires Fits(trace, l, m) && l <= m && l + m <= i < |trace|
    decreases i
  {
    if i == l + m then InitialSlowSums(trace, l, m)
    else
      var e := SlowSumsAt(trace, l, m, i - 1);
      SlowSums(e.e0 + (trace[i - m] - trace[i - l - m - 1]),
               e.e1 + (trace[i - l] - trace[i - m - 1]),
               e.e2 + (trace[i - 1] - trace[i - l - 1]))
  }

  /** What the three sums hold after the update for index i. esum2 is the
      window [i-l, i). Because esum0 and esum1 take trace[i-m] and
      trace[i-l] (one sample late), esum0 is the l+1 samples [i-l-m, i-m]
      less trace[l], and esum1 the m-l+1 samples [i-m, i-l] less trace[m]:
      each still counts l, m-l and l samples. */
  lemma {:induction false} SlowSumsClosedForm(trace: Trace, l: nat, m: nat, i: nat)
    requires Fits(trace, l, m) && l <= m && l + m <= i < |trace|
    ensures SlowSumsAt(trace, l, m, i).e2 == SumRange(trace, i - l, i)
    ensures SlowSumsAt(trace, l, m, i).e0 == SumRange(trace, i - l - m, i - m + 1) - trace[l]
    ensures SlowSumsAt(trace, l, m, i).e1 == SumRange(trace, i - m, i - l + 1) - trace[m]
    decreases i
  {
    if i > l + m {
      SlowSumsClosedForm(trace, l, m, i - 1);
      SumRangeSlide(trace, i - 1 - l, i - 1);
      SumRangeSlide(trace, i - 1 - l - m, i - m);
      SumRangeSlide(trace, i - 1 - m, i - l);
    }
  }

  /** Slow filter output: from l+m on the weighted sums less the same
      weights on the baseline sums; at l+m that difference is zero, and the
      samples below repeat it. */
  function SlowAt(trace: Trace, l: nat, m: nat, b: real, i: nat): real
    requires Fits(trace, l, m) && l <= m && Pow(b, l) != 1.0 && i < |trace|
  {
    var co := XiaSlowCoefficients(b, l);
    if i <= l + m then 0.0
    else Combine(co, SlowSumsAt(trace, l, m, i)) - Combine(co, InitialSlowSums(trace, l, m))
  }

  /** A buffer filled as the slow filter fills it holds SlowAt. */
  lemma SlowOutput(trace: Trace, l: nat, m: nat, b: real, cbase: real, buf: seq<real>)
    requires Fits(trace, l, m) && l <= m && Pow(b, l) != 1.0 && |buf| == |trace|
    requires cbase == Combine(XiaSlowCoefficients(b, l), InitialSlowSums(trace, l, m))
    requires forall k {:trigger buf[k]} :: l + m < k < |buf| ==>
               buf[k] == Combine(XiaSlowCoefficients(b, l), SlowSumsAt(trace, l, m, k)) - cbase
    requires forall k :: 0 <= k <= l + m ==> buf[k] == 0.0
    ensures forall k :: 0 <= k < |buf| ==> buf[k] == SlowAt(trace, l, m, b, k)
  {
  }

  /** On a flat trace the three sums never move away from the baseline sums. */
  lemma SlowSumsOfConstant(trace: Trace, l: nat, m: nat, c: real, i: nat)
    requires Fits(trace, l, m) && l <= m && l + m <= i < |trace|
    requires forall j :: 0 <= j < |trace| ==> trace[j] == c
    ensures SlowSumsAt(trace, l, m, i) == InitialSlowSums(trace, l, m)
  {
    SlowSumsClosedForm(trace, l, m, i);
    SumRangeConstant(trace, i - l, i, c);
    SumRangeConstant(trace, i - l - m, i - m + 1, c);
    SumRangeConstant(trace, i - m, i - l + 1, c);
    SumRangeConstant(trace, 0, l, c);
    SumRangeConstant(trace, l, m, c);
    SumRangeConstant(trace, m, l + m, c);
  }

  /** DC blocking: every output of the slow filter is zero on a flat trace. */
  lemma XiaSlowBlocksDC(trace: Trace, l: nat, m: nat, b: real, c: real, i: nat)
    requires Fits(trace, l, m) && l <= m && Pow(b, l) != 1.0 && i < |trace|
    requires forall j :: 0 <= j < |trace| ==> trace[j] == c
    ensures SlowAt(trace, l, m, b, i) == 0.0
  {
    if i > l + m {
      SlowSumsOfConstant(trace, l, m, c, i);
    }
  }

  /** The update the sliding windows evidently call for: each sum takes the
      sample that just entered its window, trace[i-m-1] for esum0 and
      trace[i-l-1] for esum1. */
  function IntendedSlowSumsAt(trace: Trace, l: nat, m: nat, i: nat): SlowSums
    requires Fits(trace, l, m) && l <= m && l + m <= i < |trace|
    decreases i
  {
    if i == l + m then InitialSlowSums(trace, l, m)
    else
      var e := IntendedSlowSumsAt(trace, l, m, i - 1);
      SlowSums(e.e0 + (trace[i - m - 1] - trace[i - l - m - 1]),
               e.e1 + (trace[i - l - 1] - trace[i - m - 1]),
               e.e2 + (trace[i - 1] - trace[i - l - 1]))
  }

  /** With that update the sums are the three adjacent windows
      [i-l-m, i-m), [i-m, i-l) and [i-l, i) of widths l, m-l and l. */
  lemma {:induction false} IntendedSlowSumsAreWindows(trace: Trace, l: nat, m: nat, i: nat)
    requires Fits(trace, l, m) && l <= m && l + m <= i < |trace|
    ensures IntendedSlowSumsAt(trace, l, m, i)
            == SlowSums(SumRange(trace, i - l - m, i - m), SumRange(trace, i - m, i - l), SumRange(trace, i - l, i))
    decreases i
  {
    if i > l + m {
      IntendedSlowSumsAreWindows(trace, l, m, i - 1);
      SumRangeSlide(trace, i - 1 - l, i - 1);
      SumRangeSlide(trace, i - 1 - l - m, i - 1 - m);
      SumRangeSlide(trace, i - 1 - m, i - 1 - l);
    }
  }

  /** A trace on which the code's esum0 is not the window [i-l-m, i-m):
      l = m = 1, trace = [0, 0, 5, 0], after the update for i = 3 esum0 is 5
      while the window [1, 2) sums to 0. */
  lemma XiaSlowSumsSkewed()
    ensures var t := [0.0, 0.0, 5.0, 0.0];
            SlowSumsAt(t, 1, 1, 3).e0 == 5.0 && SumRange(t, 1, 2) == 0.0
            && IntendedSlowSumsAt(t, 1, 1, 3).e0 == 0.0
  {
    var t := [0.0, 0.0, 5.0, 0.0];
    assert SlowSumsAt(t, 1, 1, 2) == SlowSums(0.0, 0.0, 0.0);
    assert IntendedSlowSumsAt(t, 1, 1, 2) == SlowSums(0.0, 0.0, 0.0);
  }

  // ---------------------------------------------------------------------
  // Xia fast filter and CFD filter
  // ---------------------------------------------------------------------

  /** Fast filter output: zero below l+m, and from l+m on the moving average
      of the last l differences, (p[i-l+1] + ... + p[i]) / l. */
  function FastAt(trace: Trace, l: nat, m: nat, i: nat): real
    requires Fits(trace, l, m) && i < |trace|
  {
    if i < l + m then 0.0 else DiffSum(trace, m, i - l + 1, i + 1) / l as real
  }

  /** The moving average of the fast filter steps by the newest difference
      minus the one l samples back, which the ring buffer supplies. */
  lemma FastStep(trace: Trace, l: nat, m: nat, i: nat)
    requires Fits(trace, l, m) && l + m < i < |trace|
    ensures FastAt(trace, l, m, i) == FastAt(trace, l, m, i - 1) + (Diff(trace, m, i) - Diff(trace, m, i - l)) / l as real
  {
    DiffSumTelescopes(trace, m, i - l + 1, i + 1);
    DiffSumTelescopes(trace, m, i - l, i);
    SumRangeSlide(trace, i - l, i);
    SumRangeSlide(trace, i - l - m, i - m);
    DivAdd(DiffSum(trace, m, i - l, i), Diff(trace, m, i) - Diff(trace, m, i - l), l as real);
  }

  /** One incremental fast-filter step: s[i] = s[i-1] + (p[i] - p[i-l]) / l. */
  predicate FastStepAt(trace: Trace, l: nat, m: nat, out: seq<real>, i: nat)
    requires Fits(trace, l, m) && l + m < i < |out| && |out| == |trace|
  {
    out[i] == out[i - 1] + (Diff(trace, m, i) - Diff(trace, m, i - l)) / l as real
  }

  /** Appending one more incremental step keeps the earlier ones. */
  lemma FastStepsExtend(trace: Trace, l: nat, m: nat, prev: seq<real>, out: seq<real>, i: nat)
    requires Fits(trace, l, m) && |prev| == |trace| && l + m < i < |prev|
    requires forall k :: l + m < k < i ==> FastStepAt(trace, l, m, prev, k)
    requires out == prev[i := prev[i - 1] + (Diff(trace, m, i) - Diff(trace, m, i - l)) / l as real]
    ensures forall k :: l + m < k <= i ==> FastStepAt(trace, l, m, out, k)
  {
    forall k | l + m < k <= i
      ensures FastStepAt(trace, l, m, out, k)
    {
      if k < i {
        assert FastStepAt(trace, l, m, prev, k);
      }
    }
  }

  /** An output that starts as FastAt and then takes the incremental steps
      is FastAt throughout. */
  lemma {:induction false} FastOutputFromSteps(trace: Trace, l: nat, m: nat, out: seq<real>, i: nat)
    requires Fits(trace, l, m) && |out| == |trace| && i < |out|
    requires forall k :: 0 <= k <= l + m ==> out[k] == FastAt(trace, l, m, k)
    requires forall k :: l + m < k < |out| ==> FastStepAt(trace, l, m, out, k)
    ensures out[i] == FastAt(trace, l, m, i)
  {
    if i > l + m {
      FastOutputFromSteps(trace, l, m, out, i - 1);
      assert FastStepAt(trace, l, m, out, i);
      FastStep(trace, l, m, i);
    }
  }

  /** The fast filter is zero on a flat trace. */
  lemma FastBlocksDC(trace: Trace, l: nat, m: nat, c: real, i: nat)
    requires Fits(trace, l, m) && i < |trace|
    requires forall j :: 0 <= j < |trace| ==> trace[j] == c
    ensures FastAt(trace, l, m, i) == 0.0
  {
    if i >= l + m {
      DiffSumTelescopes(trace, m, i - l + 1, i + 1);
      SumRangeConstant(trace, i - l + 1, i + 1, c);
      SumRangeConstant(trace, i - l + 1 - m, i + 1 - m, c);
    }
  }

  /** CFD attenuation 1 - w/8 (w in eighths). */
  function CFDFactor(w: U32): real
  {
    1.0 - w as real / 8.0
  }

  /** CFD output at i >= d: the attenuated fast output less the fast output d samples back. */
  function CFDAt(trace: Trace, l: nat, m: nat, d: nat, w: U32, i: nat): real
    requires Fits(trace, l, m) && d <= i < |trace|
  {
    FastAt(trace, l, m, i) * CFDFactor(w) - FastAt(trace, l, m, i - d)
  }

  /** A buffer built from the fast-filter output as the CFD loop builds it holds CFDAt. */
  lemma CFDFromFast(trace: Trace, l: nat, m: nat, d: nat, w: U32, fast: seq<real>, buf: seq<real>)
    requires Fits(trace, l, m) && |fast| == |buf| == |trace|
    requires forall k :: 0 <= k < |fast| ==> fast[k] == FastAt(trace, l, m, k)
    requires forall k :: d <= k < |buf| ==> buf[k] == fast[k] * CFDFactor(w) - fast[k - d]
    ensures forall k :: d <= k < |buf| ==> buf[k] == CFDAt(trace, l, m, d, w, k)
  {
  }

  /** The CFD output is zero on a flat trace. */
  lemma CFDBlocksDC(trace: Trace, l: nat, m: nat, d: nat, w: U32, c: real, i: nat)
    requires Fits(trace, l, m) && d <= i < |trace|
    requires forall j :: 0 <= j < |trace| ==> trace[j] == c
    ensures CFDAt(trace, l, m, d, w, i) == 0.0
  {
    FastBlocksDC(trace, l, m, c, i);
    FastBlocksDC(trace, l, m, c, i - d);
  }
}

=== FILE: Picker.dfy ===
/** The pickers of main/Picker.h and main/Picker.cpp. A picker is fixed at
    construction and reduces a filtered trace to one number. Each `Pick`
    is a loop over the trace that changes nothing, proved against the
    scans and interpolations of PickerSpec. */
module Picker {
  import opened Samples
  import opened PickerSpec

  /** The range errors BasePicker and TopBasePicker throw. */
  datatype RangeError = BaseRangeOverflow | TopBaseRangeOverflow

  /** zeroPointCubicBinary: bisects the cubic through (-1, y0), (0, y1),
      (1, y2), (2, y3) on [0, 1] for at most 1000 rounds. */
  method ZeroPointCubicBinary(y0: real, y1: real, y2: real, y3: real, tol: real) returns (x: real)
    ensures x == CubicRoot(y0, y1, y2, y3, tol)
  {
    var cubic := CubicFn(CubicThrough(y0, y1, y2, y3));
    var l, r := 0.0, 1.0;
    for j := 0 to BisectRounds
      invariant 0.0 <= l < r <= 1.0 && r - l == HalfPow(j)
      invariant Bisect(cubic, l, r, BisectRounds - j, tol) == Bisect(cubic, 0.0, 1.0, BisectRounds, tol)
    {
      var m := (l + r) / 2.0;
      var valm := cubic(m);
      if NearZero(valm, tol) {
        assert Bisect(cubic, l, r, BisectRounds - j, tol) == Found(m);
        return m;
      }
      if valm < 0.0 {
        r := m;
      } else {
        l := m;
      }
    }
    assert Bisect(cubic, l, r, 0, tol) == Bracket(l, r);
    x := (l + r) / 2.0;
  }

  /** The largest sample. */
  datatype MaxPicker = MaxPicker
  {
    function Clone(): (c: MaxPicker)
      ensures c == this
    {
      MaxPicker
    }

    method Pick(data: seq<real>) returns (v: real)
      requires |data| > 0
      ensures v in data
      ensures forall x :: x in data ==> x <= v
    {
      v := data[0];
      for k := 0 to |data|
        invariant v in data
        invariant forall j :: 0 <= j < k ==> data[j] <= v
      {
        v := if v < data[k] then data[k] else v;
      }
    }
  }

  /** The average of a window at the start of the trace. */
  datatype BasePicker = BasePicker(len: nat, start: nat := 0)
  {
    function Clone(): (c: BasePicker)
      ensures c == this
    {
      BasePicker(len, start)
    }

    /** Throws when the window runs past the end; otherwise the loop runs
        from start up to len, not start + len. */
    method Pick(data: seq<real>) returns (r: Result<real, RangeError>)
      requires start + len <= |data| ==> 0 < len && start <= len
      ensures r.Err? <==> start + len > |data|
      ensures r.Err? ==> r.error == BaseRangeOverflow
      ensures r.Ok? ==> r.value == BaseMeanAsWritten(data, start, len)
    {
      if start + len > |data| {
        return Err(BaseRangeOverflow);
      }
      var ret := 0.0;
      var i := start;
      while i != len
        invariant start <= i <= len
        invariant ret == SumRange(data, start, i)
      {
        ret := ret + data[i];
        i := i + 1;
      }
      ret := ret / len as real;
      return Ok(ret);
    }
  }

  /** The average of a window at the end of the trace. */
  datatype TopBasePicker = TopBasePicker(len: nat, stop: nat := 0)
  {
    function Clone(): (c: TopBasePicker)
      ensures c == this
    {
      TopBasePicker(len, stop)
    }

    /** Throws when the window runs past the start; otherwise the mean of
        the len samples that end stop samples before the end. */
    method Pick(data: seq<real>) returns (r: Result<real, RangeError>)
      requires stop + len <= |data| ==> 0 < len
      ensures r.Err? <==> stop + len > |data|
      ensures r.Err? ==> r.error == TopBaseRangeOverflow
      ensures r.Ok? ==> r.value == WindowMean(data, |data| - stop - len, len)
    {
      if stop + len > |data| {
        return Err(TopBaseRangeOverflow);
      }
      var ret := 0.0;
      var vsize := |data|;
      var i := vsize - stop - len;
      while i != vsize - stop
        invariant vsize - stop - len <= i <= vsize - stop
        invariant ret == SumRange(data, vsize - stop - len, i)
      {
        ret := ret + data[i];
        i := i + 1;
      }
      ret := ret / len as real;
      return Ok(ret);
    }
  }

  /** The sample where the trapezoid's top ends, found as the most negative
      stencil value over ten positions before ts + m - 1. The field l is
      kept but not used. */
  datatype TrapezoidTopPicker = TrapezoidTopPicker(ts: nat, l: nat, m: nat)
  {
    function Clone(): (c: TrapezoidTopPicker)
      ensures c == this
    {
      TrapezoidTopPicker(ts, l, m)
    }

    method Pick(data: seq<real>) returns (v: real)
      requires 20 <= ts + m && ts + m + 7 < |data|
      ensures exists fr: nat :: fr < |data| && IsTopIndex(data, ts + m - 11, ts + m - 1, fr) && v == data[fr]
    {
      var fr: nat := 0;
      var minR := 0.0;
      var i: nat := ts + m - 11;
      while i != ts + m - 1
        invariant ts + m - 11 <= i <= ts + m - 1
        invariant fr == 0 ==> minR == 0.0 && forall j :: ts + m - 11 <= j < i ==> Stencil(data, j) >= 0.0
        invariant fr != 0 ==> && ts + m - 11 <= fr < i && minR == Stencil(data, fr) < 0.0
                              && (forall j :: ts + m - 11 <= j < i ==> minR <= Stencil(data, j))
                              && (forall j :: ts + m - 11 <= j < fr ==> minR < Stencil(data, j))
      {
        var diff := 0.0;
        diff := diff + (data[i + 8] * 2.0 + data[i + 9] + data[i + 7]);
        diff := diff + (data[i - 8] * 2.0 + data[i - 9] + data[i + 9]);
        diff := diff - (data[i] * 4.0 + data[i - 1] * 2.0 + data[i + 1] * 2.0);
        assert diff == Stencil(data, i);
        if diff < minR {
          minR := diff;
          fr := i;
        }
        i := i + 1;
      }
      v := data[fr];
      assert IsTopIndex(data, ts + m - 11, ts + m - 1, fr);
    }
  }

  /** The index of the first sample above the threshold. */
  datatype LeadingEdgePicker = LeadingEdgePicker(threshold: U32)
  {
    function Clone(): (c: LeadingEdgePicker)
      ensures c == this
    {
      LeadingEdgePicker(threshold)
    }

    method Pick(data: seq<real>) returns (v: real)
      ensures v == FirstAbove(data, threshold as real, 0) as real
      ensures 0.0 <= v <= |data| as real
    {
      var ts: nat := 0;
      while ts < |data| && !(data[ts] > threshold as real)
        invariant ts <= |data|
        invariant forall j :: 0 <= j < ts ==> data[j] <= threshold as real
      {
        ts := ts + 1;
      }
      v := ts as real;
    }
  }

  /** The sub-sample time where the trace falls through zero, searched from
      ts once a sample above the threshold has been seen. */
  datatype ZeroCrossPicker = ZeroCrossPicker(ts: nat, threshold: U32, cubic: bool)
  {
    function Clone(): (c: ZeroCrossPicker)
      ensures c == this
    {
      ZeroCrossPicker(ts, threshold, cubic)
    }

    /** Linear mode interpolates the chord of the first armed fall; cubic
        mode tests one sample for being both >= 0 and < 0, which none is,
        so it always answers -1. */
    method Pick(data: seq<real>) returns (v: real)
      requires if cubic then ts + 2 <= |data| else ts + 1 <= |data|
      ensures cubic ==> v == -1.0
      ensures !cubic ==> v == LinearZeroCross(data, threshold as real, ts)
    {
      var thr := threshold as real;
      if cubic {
        var overThres := false;
        var vsize := |data| - 2;
        var i := ts;
        while i != vsize
          invariant ts <= i <= vsize
        {
          if data[i] > thr {
            overThres := true;
          }
          if overThres && CubicModeTest(data, i) {
            // the source would return i plus the bisected cubic root here
            assert false;
          }
          i := i + 1;
        }
      } else {
        var overThres := false;
        var vsize := |data| - 1;
        var i := ts;
        while i != vsize
          invariant ts <= i <= vsize
          invariant overThres <==> FirstAbove(data, thr, ts) < i
          invariant forall j :: FirstAbove(data, thr, ts) <= j < i ==> !ZeroFall(data, j)
        {
          if data[i] > thr {
            overThres := true;
          }
          if overThres && data[i] >= 0.0 && data[i + 1] < 0.0 {
            FirstZeroFallAt(data, FirstAbove(data, thr, ts), vsize, i);
            return i as real + data[i] / (data[i] - data[i + 1]);
          }
          i := i + 1;
        }
        assert ArmedZeroFall(data, thr, ts, vsize) == None;
      }
      return -1.0;
    }
  }

  /** The sub-sample time where the trace rises through a fixed fraction of
      the way from its base (mean of the first baseLen samples) to its top
      (mean of the last baseLen samples). */
  datatype DigitalFractionPicker = DigitalFractionPicker(
    ts: nat, fraction: real, cubic: bool, baseLen: nat,
    topPicker: TopBasePicker, basePicker: BasePicker)
  {
    /** The inner pickers are built from baseLen alone, so both use their
        default offset 0. */
    predicate Valid()
    {
      topPicker == TopBasePicker(baseLen) && basePicker == BasePicker(baseLen)
    }

    /** A clone is rebuilt from ts, fraction, cubic and baseLen. */
    function Clone(): (c: DigitalFractionPicker)
      ensures c.Valid()
      ensures c.ts == ts && c.fraction == fraction && c.cubic == cubic && c.baseLen == baseLen
      ensures Valid() ==> c == this
    {
      NewDigitalFractionPicker(ts, fraction, cubic, baseLen)
    }

    /** Range errors of the base picker propagate; the threshold crossing
        is then interpolated linearly or by the cubic bisection. */
    method Pick(data: seq<real>, tol: real) returns (r: Result<real, RangeError>)
      requires Valid()
      requires baseLen <= |data| ==> 0 < baseLen
      requires baseLen <= |data| ==> if cubic then 1 <= ts && ts + 2 <= |data| else ts + 1 <= |data|
      ensures r.Err? <==> baseLen > |data|
      ensures r.Err? ==> r.error == BaseRangeOverflow
      ensures r.Ok? ==>
                var thr := FractionThreshold(WindowMean(data, 0, baseLen), WindowMean(data, |data| - baseLen, baseLen), fraction);
                r.value == if cubic then CubicRiseTime(data, thr, ts, tol) else LinearRiseTime(data, thr, ts)
    {
      var base := basePicker.Pick(data);
      if base.Err? {
        return Err(base.error);
      }
      var topBase := topPicker.Pick(data);
      // the top window has the same length, so it fits whenever the base one does
      assert topBase.Ok?;
      BaseMeanAtZero(data, baseLen);
      var threshold := base.value + (topBase.value - base.value) * fraction;
      assert threshold == FractionThreshold(WindowMean(data, 0, baseLen), WindowMean(data, |data| - baseLen, baseLen), fraction);
      var t;
      if cubic {
        t := CubicRiseScan(data, threshold, ts, tol);
      } else {
        t := LinearRiseScan(data, threshold, ts);
      }
      return Ok(t);
    }
  }

  /** DigitalFractionPicker's cubic-mode loop: the first rise through the
      threshold from ts, located by zeroPointCubicBinary, or -1. */
  method CubicRiseScan(data: seq<real>, threshold: real, ts: nat, tol: real) returns (t: real)
    requires 1 <= ts && ts + 2 <= |data|
    ensures t == CubicRiseTime(data, threshold, ts, tol)
  {
    var vsize := |data| - 2;
    var i := ts;
    while i != vsize
      invariant ts <= i <= vsize
      invariant forall j :: ts <= j < i ==> !Rise(data, threshold, j)
    {
      if data[i] <= threshold && data[i + 1] > threshold {
        FirstRiseAt(data, threshold, ts, vsize, i);
        CubicRiseTimeAt(data, threshold, ts, tol, i);
        t := CubicRiseFrom(data, threshold, i, tol);
        return;
      }
      i := i + 1;
    }
    assert FirstRise(data, threshold, ts, vsize) == None;
    return -1.0;
  }

  /** The answer at a rise k: k plus the root zeroPointCubicBinary finds
      for the threshold minus the samples around k. */
  method CubicRiseFrom(data: seq<real>, threshold: real, k: nat, tol: real) returns (t: real)
    requires 1 <= k && k + 2 < |data|
    ensures t == CubicRiseAt(data, threshold, k, tol)
  {
    var x := ZeroPointCubicBinary(threshold - data[k - 1], threshold - data[k], threshold - data[k + 1], threshold - data[k + 2], tol);
    t := k as real + x;
  }

  /** DigitalFractionPicker's linear-mode loop: the first rise through the
      threshold from ts, interpolated along the chord, or -1. */
  method LinearRiseScan(data: seq<real>, threshold: real, ts: nat) returns (t: real)
    requires ts + 1 <= |data|
    ensures t == LinearRiseTime(data, threshold, ts)
  {
    var vsize := |data| - 1;
    var i := ts;
    while i != vsize
      invariant ts <= i <= vsize
      invariant forall j :: ts <= j < i ==> !Rise(data, threshold, j)
    {
      if data[i] <= threshold && data[i + 1] > threshold {
        FirstRiseAt(data, threshold, ts, vsize, i);
        return i as real + (threshold - data[i]) / (data[i + 1] - data[i]);
      }
      i := i + 1;
    }
    assert FirstRise(data, threshold, ts, vsize) == None;
    return -1.0;
  }

  /** The constructor: the inner pickers get baseLen and their default offsets. */
  function NewDigitalFractionPicker(ts: nat, fraction: real, cubic: bool, baseLen: nat): (p: DigitalFractionPicker)
    ensures p.Valid()
    ensures p.ts == ts && p.fraction == fraction && p.cubic == cubic && p.baseLen == baseLen
  {
    DigitalFractionPicker(ts, fraction, cubic, baseLen, TopBasePicker(baseLen), BasePicker(baseLen))
  }
}

=== FILE: PickerSpec.dfy ===
/** What the pickers of main/Picker.cpp compute, stated over real samples:
    the interpolating cubic and its bisection, first-match scans, the
    trapezoid stencil, and the sub-sample interpolations. */
module PickerSpec {
  import opened Samples

  // ---------------------------------------------------------------------
  // The cubic through four samples and its bisection
  // ---------------------------------------------------------------------

  /** c0 + c1·x + c2·x² + c3·x³. */
  datatype Cubic = Cubic(c0: real, c1: real, c2: real, c3: real)

  /** Horner evaluation, as the lambda in zeroPointCubicBinary does it. */
  function Eval(c: Cubic, x: real): real
  {
    ((c.c3 * x + c.c2) * x + c.c1) * x + c.c0
  }

  /** The coefficients zeroPointCubicBinary builds from y0..y3. */
  function CubicThrough(y0: real, y1: real, y2: real, y3: real): (c: Cubic)
  {
    Cubic(y1,
          -y3 / 6.0 + y2 - y1 / 2.0 - y0 / 3.0,
          y2 / 2.0 - y1 + y0 / 2.0,
          y3 / 6.0 - y2 / 2.0 + y1 / 2.0 - y0 / 6.0)
  }

  /** The cubic interpolates the four samples at x = -1, 0, 1, 2. */
  lemma CubicInterpolates(y0: real, y1: real, y2: real, y3: real)
    ensures var c := CubicThrough(y0, y1, y2, y3);
            Eval(c, -1.0) == y0 && Eval(c, 0.0) == y1 && Eval(c, 1.0) == y2 && Eval(c, 2.0) == y3
  {
    var c := CubicThrough(y0, y1, y2, y3);
    assert Eval(c, -1.0) == -c.c3 + c.c2 - c.c1 + c.c0;
    assert Eval(c, 2.0) == 8.0 * c.c3 + 4.0 * c.c2 + 2.0 * c.c1 + c.c0;
  }

  /** The early-exit test `abs(v) < eps`; which `abs` overload the code
      resolves to is not visible, so the tolerance is a parameter. */
  predicate NearZero(v: real, tol: real)
  {
    -tol < v < tol
  }

  /** How a bisection ends: a midpoint whose value passed the tolerance
      test, or the bracket left after the last step. */
  datatype Bisection = Found(x: real) | Bracket(lo: real, hi: real)

  /** `steps` rounds of bisection of f on [lo, hi]. */
  function Bisect(f: real -> real, lo: real, hi: real, steps: nat, tol: real): Bisection
    decreases steps, 1
  {
    if steps == 0 then Bracket(lo, hi) else Halve(f, lo, hi, steps, tol)
  }

  /** One round: probe the midpoint, stop if f is near zero there, go on
      with the left half when f is negative and the right half otherwise. */
  function Halve(f: real -> real, lo: real, hi: real, steps: nat, tol: real): Bisection
    requires steps > 0
    decreases steps, 0
  {
    var mid := (lo + hi) / 2.0;
    if NearZero(f(mid), tol) then Found(mid)
    else if f(mid) < 0.0 then Bisect(f, lo, mid, steps - 1, tol)
    else Bisect(f, mid, hi, steps - 1, tol)
  }

  /** The number zeroPointCubicBinary returns for a bisection outcome. */
  function Answer(b: Bisection): real
  {
    match b
    case Found(x) => x
    case Bracket(lo, hi) => (lo + hi) / 2.0
  }

  /** Halving an interval of width w * HalfPow(n + 1) leaves w * HalfPow(n + 1). */
  lemma HalfWidth(lo: real, hi: real, n: nat)
    ensures ((lo + hi) / 2.0 - lo) * HalfPow(n) == (hi - lo) * HalfPow(n + 1)
    ensures (hi - (lo + hi) / 2.0) * HalfPow(n) == (hi - lo) * HalfPow(n + 1)
  {
    var h := HalfPow(n);
    assert HalfPow(n + 1) == h / 2.0;
    assert ((lo + hi) / 2.0 - lo) * h == (hi - lo) * (h / 2.0);
    assert (hi - (lo + hi) / 2.0) * h == (hi - lo) * (h / 2.0);
  }

  /** Bisection never leaves its interval: an early answer lies strictly
      inside and passed the tolerance test; otherwise the final bracket
      is a non-empty sub-interval. */
  lemma {:induction false} BisectInside(f: real -> real, lo: real, hi: real, steps: nat, tol: real)
    requires lo < hi
    ensures match Bisect(f, lo, hi, steps, tol)
            case Found(x) => lo < x < hi && NearZero(f(x), tol)
            case Bracket(lo', hi') => lo <= lo' < hi' <= hi
    decreases steps
  {
    if steps > 0 {
      var mid := (lo + hi) / 2.0;
      BisectInside(f, lo, mid, steps - 1, tol);
      BisectInside(f, mid, hi, steps - 1, tol);
    }
  }

  /** Every round halves the bracket: after `steps` rounds without an early
      answer it is the original width times 1/2^steps. */
  lemma {:induction false} BisectHalves(f: real -> real, lo: real, hi: real, steps: nat, tol: real)
    ensures Bisect(f, lo, hi, steps, tol).Bracket? ==>
              Bisect(f, lo, hi, steps, tol).hi - Bisect(f, lo, hi, steps, tol).lo == (hi - lo) * HalfPow(steps)
    decreases steps
  {
    if steps > 0 {
      var mid := (lo + hi) / 2.0;
      HalfWidth(lo, hi, steps - 1);
      BisectHalves(f, lo, mid, steps - 1, tol);
      BisectHalves(f, mid, hi, steps - 1, tol);
    }
  }

  /** Bisection keeps a sign change: when f is >= 0 at lo and < 0 at hi,
      so it is at the ends of the final bracket. */
  lemma {:induction false} BisectKeepsSignChange(f: real -> real, lo: real, hi: real, steps: nat, tol: real)
    requires f(lo) >= 0.0 > f(hi)
    ensures Bisect(f, lo, hi, steps, tol).Bracket? ==>
              f(Bisect(f, lo, hi, steps, tol).lo) >= 0.0 > f(Bisect(f, lo, hi, steps, tol).hi)
    decreases steps
  {
    if steps > 0 {
      var mid := (lo + hi) / 2.0;
      if !NearZero(f(mid), tol) {
        if f(mid) < 0.0 {
          BisectKeepsSignChange(f, lo, mid, steps - 1, tol);
        } else {
          BisectKeepsSignChange(f, mid, hi, steps - 1, tol);
        }
      }
    }
  }

  /** The answer of a bisection on [0, 1] lies strictly between 0 and 1. */
  lemma UnitAnswerInside(f: real -> real, steps: nat, tol: real)
    ensures 0.0 < Answer(Bisect(f, 0.0, 1.0, steps, tol)) < 1.0
  {
    BisectInside(f, 0.0, 1.0, steps, tol);
  }

  /** The cubic as a function of x, the form the bisection works on. */
  function CubicFn(c: Cubic): real -> real
  {
    x => Eval(c, x)
  }

  /** The number of rounds zeroPointCubicBinary runs at most. */
  const BisectRounds: nat := 1000

  /** What zeroPointCubicBinary(y0, y1, y2, y3) returns, for tolerance tol. */
  function CubicRoot(y0: real, y1: real, y2: real, y3: real, tol: real): (x: real)
    ensures 0.0 < x < 1.0
  {
    UnitAnswerInside(CubicFn(CubicThrough(y0, y1, y2, y3)), BisectRounds, tol);
    Answer(Bisect(CubicFn(CubicThrough(y0, y1, y2, y3)), 0.0, 1.0, BisectRounds, tol))
  }

  /** Bisecting on [0, 1] a function that is >= 0 at 0 and < 0 at 1: the
      answer either passed the tolerance test, or it is the midpoint of a
      bracket of width 1/2^steps whose ends still show that sign change. */
  lemma BisectLocates(f: real -> real, steps: nat, tol: real)
    requires f(0.0) >= 0.0 > f(1.0)
    ensures var b := Bisect(f, 0.0, 1.0, steps, tol);
            && (b.Found? ==> NearZero(f(b.x), tol))
            && (b.Bracket? ==> && f(b.lo) >= 0.0 > f(b.hi)
                               && b.hi - b.lo == HalfPow(steps)
                               && b.lo < Answer(b) < b.hi)
  {
    BisectInside(f, 0.0, 1.0, steps, tol);
    BisectHalves(f, 0.0, 1.0, steps, tol);
    BisectKeepsSignChange(f, 0.0, 1.0, steps, tol);
  }

  /** zeroPointCubicBinary is handed y1 >= 0 > y2, so its cubic changes
      sign on [0, 1] and the bisection locates a point there. */
  lemma CubicRootLocated(y0: real, y1: real, y2: real, y3: real, tol: real)
    requires y1 >= 0.0 > y2
    ensures var f := CubicFn(CubicThrough(y0, y1, y2, y3));
            var b := Bisect(f, 0.0, 1.0, BisectRounds, tol);
            && Answer(b) == CubicRoot(y0, y1, y2, y3, tol)
            && (b.Found? ==> NearZero(f(b.x), tol))
            && (b.Bracket? ==> && f(b.lo) >= 0.0 > f(b.hi)
                               && b.hi - b.lo == HalfPow(BisectRounds)
                               && b.lo < Answer(b) < b.hi)
  {
    var c := CubicThrough(y0, y1, y2, y3);
    assert CubicFn(c)(0.0) >= 0.0 > CubicFn(c)(1.0) by {
      CubicInterpolates(y0, y1, y2, y3);
    }
    BisectLocates(CubicFn(c), BisectRounds, tol);
  }

  // ---------------------------------------------------------------------
  // Scans
  // ---------------------------------------------------------------------

  /** The first index k >= from with data[k] > thr, or |data| if none. */
  function FirstAbove(data: seq<real>, thr: real, from: nat): (k: nat)
    requires from <= |data|
    ensures from <= k <= |data|
    ensures forall j :: from <= j < k ==> data[j] <= thr
    ensures k < |data| ==> data[k] > thr
    decreases |data| - from
  {
    if from == |data| then from
    else if data[from] > thr then from
    else FirstAbove(data, thr, from + 1)
  }

  /** A fall through zero between samples i and i+1. */
  predicate ZeroFall(data: seq<real>, i: nat)
    requires i + 1 < |data|
  {
    data[i] >= 0.0 && data[i + 1] < 0.0
  }

  /** The first i in [from, hi) with a fall through zero. */
  function FirstZeroFall(data: seq<real>, from: nat, hi: nat): (k: Option<nat>)
    requires hi < |data|
    ensures k.Some? ==> from <= k.value < hi && ZeroFall(data, k.value)
    ensures forall j :: from <= j < hi && (k.Some? ==> j < k.value) ==> !ZeroFall(data, j)
    decreases hi - from
  {
    if from >= hi then None
    else if ZeroFall(data, from) then Some(from)
    else FirstZeroFall(data, from + 1, hi)
  }

  /** A fall with none before it in [from, i) is the first one. */
  lemma FirstZeroFallAt(data: seq<real>, from: nat, hi: nat, i: nat)
    requires from <= i < hi < |data| && ZeroFall(data, i)
    requires forall j :: from <= j < i ==> !ZeroFall(data, j)
    ensures FirstZeroFall(data, from, hi) == Some(i)
  {
  }

  /** A rise through thr between samples i and i+1. */
  predicate Rise(data: seq<real>, thr: real, i: nat)
    requires i + 1 < |data|
  {
    data[i] <= thr && data[i + 1] > thr
  }

  /** The first i in [from, hi) with a rise through thr. */
  function FirstRise(data: seq<real>, thr: real, from: nat, hi: nat): (k: Option<nat>)
    requires hi < |data|
    ensures k.Some? ==> from <= k.value < hi && Rise(data, thr, k.value)
    ensures forall j :: from <= j < hi && (k.Some? ==> j < k.value) ==> !Rise(data, thr, j)
    decreases hi - from
  {
    if from >= hi then None
    else if Rise(data, thr, from) then Some(from)
    else FirstRise(data, thr, from + 1, hi)
  }

  /** A rise with none before it in [from, i) is the first one. */
  lemma FirstRiseAt(data: seq<real>, thr: real, from: nat, hi: nat, i: nat)
    requires from <= i < hi < |data| && Rise(data, thr, i)
    requires forall j :: from <= j < i ==> !Rise(data, thr, j)
    ensures FirstRise(data, thr, from, hi) == Some(i)
  {
  }

  // ---------------------------------------------------------------------
  // Sub-sample interpolation
  // ---------------------------------------------------------------------

  /** The zero of the chord from (0, a) to (1, b): a / (a - b). */
  function ChordZero(a: real, b: real): (t: real)
    requires a >= 0.0 > b
    ensures 0.0 <= t < 1.0
    ensures a + (b - a) * t == 0.0
  {
    a / (a - b)
  }

  /** A proper fraction of a positive quantity is below 1. */
  lemma FractionBelowOne(x: real, y: real)
    requires 0.0 <= x < y
    ensures 0.0 <= x / y < 1.0
  {
    assert x / y * y == x;
  }

  /** Where the chord from (0, a) to (1, b) reaches thr: (thr - a) / (b - a). */
  function ChordCross(a: real, b: real, thr: real): (t: real)
    requires a <= thr < b
    ensures 0.0 <= t < 1.0
    ensures a + (b - a) * t == thr
  {
    FractionBelowOne(thr - a, b - a);
    (thr - a) / (b - a)
  }

  // ---------------------------------------------------------------------
  // Crossing times
  // ---------------------------------------------------------------------

  /** ZeroCrossPicker's search: the first fall through zero in [ts, hi) at or
      after the first sample above thr, which arms the search. */
  function ArmedZeroFall(data: seq<real>, thr: real, ts: nat, hi: nat): Option<nat>
    requires ts <= |data| && hi < |data|
  {
    FirstZeroFall(data, FirstAbove(data, thr, ts), hi)
  }

  /** The armed fall is the first index from ts that is a fall and has a
      sample above thr somewhere in [ts, k]; no earlier fall is armed. */
  lemma ArmedZeroFallIsFirst(data: seq<real>, thr: real, ts: nat, hi: nat)
    requires ts <= |data| && hi < |data|
    ensures var k := ArmedZeroFall(data, thr, ts, hi);
            && (k.Some? ==> && ts <= k.value < hi && ZeroFall(data, k.value)
                            && exists a :: ts <= a <= k.value && data[a] > thr)
            && (forall j :: ts <= j < hi && (k.Some? ==> j < k.value) && ZeroFall(data, j) ==>
                  forall a :: ts <= a <= j ==> data[a] <= thr)
  {
    var k := ArmedZeroFall(data, thr, ts, hi);
    var first := FirstAbove(data, thr, ts);
    if k.Some? {
      assert ts <= first <= k.value && data[first] > thr;
    }
  }

  /** ZeroCrossPicker's linear answer: the armed fall's index plus the
      chord's zero, or -1 when there is none. */
  function LinearZeroCross(data: seq<real>, thr: real, ts: nat): (t: real)
    requires ts < |data|
    ensures match ArmedZeroFall(data, thr, ts, |data| - 1)
            case Some(k) => k as real <= t < k as real + 1.0
            case None => t == -1.0
  {
    match ArmedZeroFall(data, thr, ts, |data| - 1)
    case Some(k) => k as real + ChordZero(data[k], data[k + 1])
    case None => -1.0
  }

  /** The cubic mode evidently meant: the same armed fall, located by
      bisecting the cubic through data[k-1 .. k+2]. */
  function IntendedCubicZeroCross(data: seq<real>, thr: real, ts: nat, tol: real): (t: real)
    requires 1 <= ts && ts + 2 <= |data|
    ensures match ArmedZeroFall(data, thr, ts, |data| - 2)
            case Some(k) => k as real < t < k as real + 1.0
            case None => t == -1.0
  {
    match ArmedZeroFall(data, thr, ts, |data| - 2)
    case Some(k) => CubicFallAt(data, k, tol)
    case None => -1.0
  }

  /** k plus the bisected root of the cubic through data[k-1 .. k+2]. */
  function CubicFallAt(data: seq<real>, k: nat, tol: real): (t: real)
    requires 1 <= k && k + 2 < |data|
    ensures k as real < t < k as real + 1.0
  {
    k as real + CubicRoot(data[k - 1], data[k], data[k + 1], data[k + 2], tol)
  }

  /** The cubic-mode test of ZeroCrossPicker as written: one sample both
      >= 0 and < 0. */
  predicate CubicModeTest(data: seq<real>, i: nat)
    requires i < |data|
  {
    data[i] >= 0.0 && data[i] < 0.0
  }

  /** No sample passes it, so the cubic mode can only answer -1. */
  lemma CubicModeTestNeverHolds(data: seq<real>, i: nat)
    requires i < |data|
    ensures !CubicModeTest(data, i)
  {
  }

  /** On [0, 10, -10, 0] from ts = 1 with threshold 5 there is an armed fall
      at 1, which the intended cubic mode places in (1, 2). */
  lemma CubicModeMissesFall(tol: real)
    ensures ArmedZeroFall([0.0, 10.0, -10.0, 0.0], 5.0, 1, 2) == Some(1)
    ensures 1.0 < IntendedCubicZeroCross([0.0, 10.0, -10.0, 0.0], 5.0, 1, tol) < 2.0
  {
    var data := [0.0, 10.0, -10.0, 0.0];
    assert FirstAbove(data, 5.0, 1) == 1;
    assert ZeroFall(data, 1);
  }

  /** DigitalFractionPicker's threshold, the given fraction of the way
      from base to top. */
  function FractionThreshold(base: real, top: real, fraction: real): real
  {
    base + (top - base) * fraction
  }

  /** For a fraction in [0, 1] the threshold lies between base and top. */
  lemma FractionThresholdBetween(base: real, top: real, fraction: real)
    requires 0.0 <= fraction <= 1.0 && base <= top
    ensures base <= FractionThreshold(base, top, fraction) <= top
  {
    ProductNonNegative(top - base, fraction);
    PartBelowWhole(top - base, fraction);
  }

  lemma ProductNonNegative(x: real, f: real)
    requires 0.0 <= x && 0.0 <= f
    ensures 0.0 <= x * f
  {
  }

  /** At most all of a non-negative quantity. */
  lemma PartBelowWhole(x: real, f: real)
    requires 0.0 <= x && f <= 1.0
    ensures x * f <= x
  {
    ProductNonNegative(x, 1.0 - f);
    assert x * (1.0 - f) == x - x * f;
  }

  /** DigitalFractionPicker's linear answer: the first rise through thr in
      [ts, |data| - 1) plus where the chord reaches thr, or -1. */
  function LinearRiseTime(data: seq<real>, thr: real, ts: nat): (t: real)
    requires ts < |data|
    ensures match FirstRise(data, thr, ts, |data| - 1)
            case Some(k) => k as real <= t < k as real + 1.0
            case None => t == -1.0
  {
    match FirstRise(data, thr, ts, |data| - 1)
    case Some(k) => k as real + ChordCross(data[k], data[k + 1], thr)
    case None => -1.0
  }

  /** DigitalFractionPicker's cubic answer: the first rise through thr in
      [ts, |data| - 2) plus the bisected root of thr minus the cubic
      through data[k-1 .. k+2], or -1. */
  function CubicRiseTime(data: seq<real>, thr: real, ts: nat, tol: real): (t: real)
    requires 1 <= ts && ts + 2 <= |data|
    ensures match FirstRise(data, thr, ts, |data| - 2)
            case Some(k) => k as real < t < k as real + 1.0
            case None => t == -1.0
  {
    match FirstRise(data, thr, ts, |data| - 2)
    case Some(k) => CubicRiseAt(data, thr, k, tol)
    case None => -1.0
  }

  /** k plus the bisected root of thr minus the cubic through data[k-1 .. k+2]. */
  function CubicRiseAt(data: seq<real>, thr: real, k: nat, tol: real): (t: real)
    requires 1 <= k && k + 2 < |data|
    ensures k as real < t < k as real + 1.0
  {
    k as real + CubicRoot(thr - data[k - 1], thr - data[k], thr - data[k + 1], thr - data[k + 2], tol)
  }

  /** At a known first rise k the cubic answer is the one located at k. */
  lemma CubicRiseTimeAt(data: seq<real>, thr: real, ts: nat, tol: real, k: nat)
    requires 1 <= ts && ts + 2 <= |data|
    requires FirstRise(data, thr, ts, |data| - 2) == Some(k)
    ensures CubicRiseTime(data, thr, ts, tol) == CubicRiseAt(data, thr, k, tol)
  {
  }

  /** At a rise, the values handed to the bisection change sign between
      x = 0 and x = 1 as the bisection expects. */
  lemma RiseGivesSignChange(data: seq<real>, thr: real, k: nat)
    requires 1 <= k && k + 2 < |data| && Rise(data, thr, k)
    ensures thr - data[k] >= 0.0 > thr - data[k + 1]
  {
  }

  // ---------------------------------------------------------------------
  // Trapezoid top
  // ---------------------------------------------------------------------

  /** The curvature stencil of TrapezoidTopPicker as written, with
      diffLen = 8: data[i+9] enters twice and data[i-7] not at all. */
  function Stencil(data: seq<real>, i: nat): real
    requires 9 <= i && i + 9 < |data|
  {
    data[i + 8] * 2.0 + data[i + 9] + data[i + 7]
    + data[i - 8] * 2.0 + data[i - 9] + data[i + 9]
    - (data[i] * 4.0 + data[i - 1] * 2.0 + data[i + 1] * 2.0)
  }

  /** fr as the scan over [lo, hi) leaves it: 0 if no stencil value is
      negative, otherwise the first index where the smallest one occurs. */
  predicate IsTopIndex(data: seq<real>, lo: nat, hi: nat, fr: nat)
    requires 9 <= lo && hi + 8 < |data|
  {
    || (fr == 0 && forall j :: lo <= j < hi ==> Stencil(data, j) >= 0.0)
    || (&& lo <= fr < hi && Stencil(data, fr) < 0.0
        && (forall j :: lo <= j < hi ==> Stencil(data, fr) <= Stencil(data, j))
        && (forall j :: lo <= j < fr ==> Stencil(data, fr) < Stencil(data, j)))
  }

  /** At most one index fits that description. */
  lemma TopIndexUnique(data: seq<real>, lo: nat, hi: nat, fr1: nat, fr2: nat)
    requires 9 <= lo && hi + 8 < |data|
    requires IsTopIndex(data, lo, hi, fr1) && IsTopIndex(data, lo, hi, fr2)
    ensures fr1 == fr2
  {
  }

  /** The stencil evidently meant: the right half 2·d[i+8] + d[i+9] + d[i+7]
      mirrored as 2·d[i-8] + d[i-9] + d[i-7]. */
  function IntendedStencil(data: seq<real>, i: nat): real
    requires 9 <= i && i + 9 < |data|
  {
    data[i + 8] * 2.0 + data[i + 9] + data[i + 7]
    + data[i - 8] * 2.0 + data[i - 9] + data[i - 7]
    - (data[i] * 4.0 + data[i - 1] * 2.0 + data[i + 1] * 2.0)
  }

  /** The mirrored stencil vanishes on every straight line, so on the flat
      top and on the straight edges of a trapezoid it reads zero. */
  lemma IntendedStencilFlatOnLines(data: seq<real>, i: nat, a: real, b: real)
    requires 9 <= i && i + 9 < |data|
    requires forall k :: 0 <= k < |data| ==> data[k] == a + b * k as real
    ensures IntendedStencil(data, i) == 0.0
  {
    var x := i as real;
    assert data[i + 8] == a + b * x + 8.0 * b;
    assert data[i + 9] == a + b * x + 9.0 * b;
    assert data[i + 7] == a + b * x + 7.0 * b;
    assert data[i + 1] == a + b * x + b;
    assert data[i - 1] == a + b * x - b;
    assert data[i - 7] == a + b * x - 7.0 * b;
    assert data[i - 8] == a + b * x - 8.0 * b;
    assert data[i - 9] == a + b * x - 9.0 * b;
  }

  /** The stencil as written reads 16 on the unit ramp data[k] = k at i = 9,
      where the mirrored one reads 0. */
  lemma StencilTiltsOnRamp()
    ensures var ramp := seq(19, k => k as real);
            Stencil(ramp, 9) == 16.0 && IntendedStencil(ramp, 9) == 0.0
  {
  }

  // ---------------------------------------------------------------------
  // Base window
  // ---------------------------------------------------------------------

  /** What BasePicker's loop sums, s[start] + ... + s[len-1], over len. */
  function BaseMeanAsWritten(data: seq<real>, start: nat, len: nat): real
    requires start <= len <= |data| && 0 < len
  {
    SumRange(data, start, len) / len as real
  }

  /** The mean of the len samples from start, which BasePicker's range
      check and its documentation describe. */
  function WindowMean(data: seq<real>, start: nat, len: nat): real
    requires start + len <= |data| && 0 < len
  {
    SumRange(data, start, start + len) / len as real
  }

  /** The mean of a flat window is its level. */
  lemma WindowMeanOfConstant(data: seq<real>, start: nat, len: nat, c: real)
    requires start + len <= |data| && 0 < len
    requires forall k :: start <= k < start + len ==> data[k] == c
    ensures WindowMean(data, start, len) == c
  {
    SumRangeConstant(data, start, start + len, c);
  }

  /** From start 0, the only offset the rest of the code uses, the two agree. */
  lemma BaseMeanAtZero(data: seq<real>, len: nat)
    requires len <= |data| && 0 < len
    ensures BaseMeanAsWritten(data, 0, len) == WindowMean(data, 0, len)
  {
  }

  /** With start 1 and len 1 on [5, 7] the loop sums nothing and gives 0,
      while the window [1, 2) has mean 7. */
  lemma BaseMeanSkipsWindow()
    ensures BaseMeanAsWritten([5.0, 7.0], 1, 1) == 0.0 && WindowMean([5.0, 7.0], 1, 1) == 7.0
  {
    assert SumRange([5.0, 7.0], 1, 2) == SumRange([5.0, 7.0], 1, 1) + 7.0;
  }
}

=== FILE: Samples.dfy ===
/** Arithmetic on sampled traces shared by the filters and the pickers:
    sums over index ranges, integer powers, halving widths, the 32-bit
    `unsigned int` of the configuration interface, and the error wrappers. */
module Samples {

  /** A digitized pulse: the amplitudes of consecutive samples. */
  type Trace = seq<real>

  /** `unsigned int` configuration values (lengths in time units, thresholds). */
  const U32Modulus: nat := 0x1_0000_0000
  type U32 = x: int | 0 <= x < 0x1_0000_0000

  datatype Option<+T> = None | Some(value: T)

  /** The outcome of a call that may throw: its value, or the error it raises. */
  datatype Result<+T, +E> = Ok(value: T) | Err(error: E)

  /** s[lo] + ... + s[hi-1]. */
  function SumRange(s: seq<real>, lo: nat, hi: nat): real
    requires lo <= hi <= |s|
    decreases hi - lo
  {
    if lo == hi then 0.0 else SumRange(s, lo, hi - 1) + s[hi - 1]
  }

  lemma {:induction false} SumRangeSplit(s: seq<real>, lo: nat, mid: nat, hi: nat)
    requires lo <= mid <= hi <= |s|
    ensures SumRange(s, lo, hi) == SumRange(s, lo, mid) + SumRange(s, mid, hi)
    decreases hi - mid
  {
    if mid < hi {
      SumRangeSplit(s, lo, mid, hi - 1);
    }
  }

  /** Sliding a window one sample to the right adds the new sample and drops the oldest. */
  lemma SumRangeSlide(s: seq<real>, lo: nat, hi: nat)
    requires lo <= hi < |s|
    ensures SumRange(s, lo + 1, hi + 1) == SumRange(s, lo, hi) + s[hi] - s[lo]
  {
    SumRangeSplit(s, lo, lo + 1, hi + 1);
  }

  /** A window of a constant stretch sums to its width times the constant. */
  lemma {:induction false} SumRangeConstant(s: seq<real>, lo: nat, hi: nat, c: real)
    requires lo <= hi <= |s|
    requires forall i :: lo <= i < hi ==> s[i] == c
    ensures SumRange(s, lo, hi) == (hi - lo) as real * c
    decreases hi - lo
  {
    if lo < hi {
      SumRangeConstant(s, lo, hi - 1, c);
    }
  }

  /** Two sequences that agree on a window, up to a shift, have the same sum over it. */
  lemma {:induction false} SumRangeShift(a: seq<real>, b: seq<real>, lo: nat, hi: nat, off: nat)
    requires lo <= hi <= |a| && hi + off <= |b|
    requires forall k :: lo <= k < hi ==> a[k] == b[k + off]
    ensures SumRange(a, lo, hi) == SumRange(b, lo + off, hi + off)
    decreases hi - lo
  {
    if lo < hi {
      SumRangeShift(a, b, lo, hi - 1, off);
    }
  }

  lemma DivAdd(x: real, y: real, d: real)
    requires d != 0.0
    ensures x / d + y / d == (x + y) / d
  {
  }

  /** b to the n-th power, for the integer exponents the filters use. */
  function Pow(b: real, n: nat): real
  {
    if n == 0 then 1.0 else b * Pow(b, n - 1)
  }

  /** 1 / 2^n: the width left after n halvings of the unit interval. */
  function HalfPow(n: nat): (w: real)
    ensures 0.0 < w <= 1.0
  {
    if n == 0 then 1.0 else HalfPow(n - 1) / 2.0
  }

  /** `L + G` evaluated in 32-bit `unsigned int`, which wraps around. */
  function WrapAdd(a: U32, b: U32): (s: U32)
    ensures a + b < U32Modulus ==> s == a + b
    ensures a + b >= U32Modulus ==> s == a + b - U32Modulus
  {
    (a + b) % U32Modulus
  }

  /** A time span converted to samples with truncating integer division. */
  function ToSamples(span: U32, dt: U32): (n: nat)
    requires 0 < dt
    ensures n * dt <= span < (n + 1) * dt
  {
    span / dt
  }
}
